=== FILE: README.md ===
# prboom-3ds: software sound mixer and frontend menu logic, in Dafny

This project models two parts of the Nintendo 3DS port of PrBoom.

**The software sound mixer of `src/3DS/i_sound.c`.**
- `I_SetChannels` builds the 128 x 256 gain table (`VolumeTable`) and zeroes the 32 mixing channels.
- The sound layer starts, re-parameterises and stops sounds on those channels, and asks whether they play (`ChannelPool`).
- The NDSP callback `I_UpdateSound` fills the looping stereo buffer up to the hardware position (`Mixer`). For each frame it does four things:
  - sums every active channel's gain-table entries for the byte under its 16.16 fixed-point cursor;
  - advances each cursor;
  - retires the channels that reach their end, giving back their lump lock;
  - saturates the sums to 16 bits.

A channel's `data` and `enddata` pointers are indices into the bytes of the lump it plays; a NULL `data` is `None`. Each lump lock taken with `W_LockLumpNum` and given back with `W_UnlockLumpNum` is an element of the multiset `locked` of sound ids. Two invariants hold throughout:
- `Valid`: 32 slots, each slot's cursor inside its lump, the fraction below 1.0, and the gains naming real table rows.
- `Balanced`: the outstanding locks are exactly the ids of the active slots.

C's unsigned 32-bit arithmetic, truncating `/` and 16-bit saturation are written out in `CInt`.

**The non-display logic of the frontend menu in `src/3DS/i_menu.c`.** It is the loader screen that picks the IWAD, video mode, PWADs and game options before the engine starts.
- `MenuItems`: the two item tables, and the key handling of the main loop. The loop moves the cursor, adjusts a choice, integer or yes/no item, follows a menu link, opens the PWAD list or starts the game.
- `PwadList`: the list of additional files, with its move-up, move-down, remove and select edits.
- `FileBrowser`: the paged cursor of the file browser.
- `Extensions`: the `strrchr` + `tolower` test for `.wad` and `.deh` names, and the directory listing built with it.
- `LaunchArgs`: the IWAD search, `%d` formatting, and the argument vector assembled once "Start game" is chosen.

Fatal `I_Error` calls are preconditions. The model follows the build without `RANGECHECK`.

## Model

| member | source | states |
|---|---|---|
| CInt.U32 | src/3DS/i_sound.c:88-91 | An `unsigned int` value: in [0, 2^32), congruent to the exact value modulo 2^32, and equal to it when it fits |
| CInt.TruncDiv | src/3DS/i_sound.c:248 | C's signed `/` truncates toward zero: the quotient's magnitude is floor(abs(a) / b) and its sign is that of the dividend |
| CInt.Clamp16 | src/3DS/i_sound.c:435-448 | A mixed sum is saturated to [SHRT_MIN, SHRT_MAX]: unchanged inside the range, SHRT_MAX above it, SHRT_MIN below it |
| VolumeTable.BuildVolumeTable | src/3DS/i_sound.c:243-250 | The nested loops produce the 32768-entry table whose entry i*256+j is (i*(j-128)*256)/191 with C division |
| VolumeTable.LookupEntry | src/3DS/i_sound.c:414-415 | Reading byte b through the row pointer of gain g yields exactly the table entry for (g, b) |
| VolumeTable.VolSign | src/3DS/i_sound.c:248 | An entry is positive exactly for gain > 0 and byte > 128, negative exactly for gain > 0 and byte < 128, and zero for gain 0 or byte 128 |
| VolumeTable.VolBounds | src/3DS/i_sound.c:248 | Every entry lies in [-21788, 21617], and both extremes are reached at gain 127 |
| VolumeTable.VolOddSymmetric | src/3DS/i_sound.c:248 | Byte 128+d contributes exactly the negation of byte 128-d at every gain |
| VolumeTable.VolMonotone | src/3DS/i_sound.c:248 | Each gain row is non-decreasing in the raw byte |
| ChannelPool.StopChan | src/3DS/i_sound.c:122-129 | An active slot becomes empty and gives back exactly its own lock; an empty slot and every other slot are left as they were |
| ChannelPool.StopChanValid | src/3DS/i_sound.c:122-129 | Stopping a slot keeps the pool valid and the locks matched to the active slots |
| ChannelPool.StopChanIdempotent | src/3DS/i_sound.c:122-129 | A second stop of the same slot changes nothing; a stop releases one lock of the slot's id if it was active and none otherwise |
| ChannelPool.AddSfx | src/3DS/i_sound.c:138-157 | Only the addressed slot changes. Its old lock is released. It then plays the new lump from just past the 8-byte header, with end index len - 1 from the lump start, the little-endian rate of bytes 2-3, fraction 0, and the given id and start tic |
| ChannelPool.AttenuationBounds | src/3DS/i_sound.c:187-189 | For volume 0..127 and s in 1..256, `(volume*s*s) >> 16` lies between 0 and the volume |
| ChannelPool.AttenuationMonotone | src/3DS/i_sound.c:187-189 | A larger separation term never attenuates less |
| ChannelPool.GainsInRange | src/3DS/i_sound.c:182-196 | For volume 0..127 and separation 0..255 neither `I_Error` branch fires, and both gains lie in [0, volume] |
| ChannelPool.GainsHardPan | src/3DS/i_sound.c:182-189 | Separation 0 sends the whole volume left, and separation 255 sends it all right |
| ChannelPool.GainsPanMonotone | src/3DS/i_sound.c:182-189 | Moving the separation right never raises the left gain nor lowers the right gain |
| ChannelPool.StepMeaning | src/3DS/i_sound.c:164-178 | Without pitching the step is the floored 16.16 rate ratio, so it is 1.0 at equal rates. With pitching and no 32-bit wrap it is the table entry plus that ratio minus 1.0 |
| ChannelPool.UpdateSoundParams | src/3DS/i_sound.c:159-207 | Only the addressed slot's step and two gain rows change: the step becomes `StepFor` of the pitch table entry, the slot's sample rate and the output rate, and the rows become the `Gains` of volume and separation; validity and lock balance are kept |
| ChannelPool.StartSound | src/3DS/i_sound.c:276-313 | Returns -1 and changes nothing exactly when the channel is outside 0..31 or the lump has at most 8 bytes. Otherwise it returns the channel, which now plays that lump under that id, with the step for the lump's header rate and the gains for its volume and separation, and no other slot changes |
| ChannelPool.StartSoundValid | src/3DS/i_sound.c:282-312 | Starting keeps the pool valid and balanced: the slot's old lock is given back and exactly one lock on the new sound is taken |
| ChannelPool.BindValid | src/3DS/i_sound.c:306-309 | Locking the lump and then binding the slot keeps a valid, balanced pool, with exactly one lock added net of the slot's old one |
| ChannelPool.StopSound | src/3DS/i_sound.c:317-324 | After a stop the handle is not playing, and validity and lock balance are kept |
| ChannelPool.StartThenStop | src/3DS/i_sound.c:276-333 | A started sound plays on the returned channel; stopping it ends playback and releases exactly the one lock it took |
| ChannelPool.AnySoundStillPlaying | src/3DS/i_sound.c:337-346 | The OR over all 32 slots is true exactly when some slot plays |
| ChannelPool.PlayingHoldsLock | src/3DS/i_sound.c:325-332 | `I_SoundIsPlaying` reports a handle as playing only while a lock on its sound's lump is outstanding |
| ChannelPool.PlayingIffLocked | src/3DS/i_sound.c:327-346 | In a balanced pool some sound plays exactly when some lump lock is outstanding |
| ChannelPool.ResetChannels | src/3DS/i_sound.c:228-232 | After the reset no slot plays, and the lock multiset is carried over untouched |
| ChannelPool.ResetValidIffNoLocks | src/3DS/i_sound.c:228-232 | The reset pool is valid, and it is balanced exactly when no lock was outstanding, so a playing sound's lock leaks |
| Mixer.AdvanceCursor | src/3DS/i_sound.c:417-421 | The 16.16 cursor moves by the 32-bit sum of fraction and step and never backwards, and the fraction stays below 1.0. Without wrap the cursor moves by exactly `step`, and a step of 1.0 moves one byte |
| Mixer.StepChannelMeaning | src/3DS/i_sound.c:417-425 | A step advances the cursor and keeps the channel exactly while the advanced cursor is before `enddata` |
| Mixer.ContributionGains | src/3DS/i_sound.c:405-415 | With the built table an active channel adds its left and right gains' entries for the byte under its cursor |
| Mixer.ContributionBounds | src/3DS/i_sound.c:405-415 | One slot's contribution lies between the table's extremes |
| Mixer.MixFrame | src/3DS/i_sound.c:392-427 | The in-place `chan` loop computes exactly the slot-by-slot frame: each slot's sums, its steps, and the locks given back |
| Mixer.FrameKeeps | src/3DS/i_sound.c:398-427 | A frame leaves the slots from numChannels on and every empty slot alone, and only gives locks back |
| Mixer.LocksOnlyReleased | src/3DS/i_sound.c:424-425 | The steps of a frame never take a lock, only release them |
| Mixer.FrameBounds | src/3DS/i_sound.c:398-415 | Each sum of a frame over n slots lies within n times the table's extremes |
| Mixer.FrameSilent | src/3DS/i_sound.c:398-427 | With no active slot a frame sums to (0, 0) and changes nothing |
| Mixer.FrameBalanced | src/3DS/i_sound.c:398-427 | A frame keeps the locks matched to the active slots: each channel it retires gives back its own lock |
| Mixer.PoolAfterBalanced | src/3DS/i_sound.c:384-453 | Any number of frames keeps the lock balance |
| Mixer.SilentFrames | src/3DS/i_sound.c:384-453 | With no active channel every frame is silent and the pool never changes |
| Mixer.SlotNext | src/3DS/i_sound.c:451-452 | `sample_start++` then `%= SAMPLECOUNT` moves one place round the ring |
| Mixer.RingRoundTrip | src/3DS/i_sound.c:384-452 | Walking k < 512 frames and measuring the ring distance back gives k; measuring and then walking reaches the frame |
| Mixer.WriteFrame | src/3DS/i_sound.c:388-448 | Storing frame k at interleaved indices 2f and 2f+1 of its ring slot f extends the written prefix and leaves the rest of the buffer as it was |
| Mixer.FillStep | src/3DS/i_sound.c:386-452 | One pass of the frame loop keeps the loop state: the pool after k+1 frames, and frames 0..k at their ring slots |
| Mixer.WriteFrameAt | src/3DS/i_sound.c:386-452 | Mixing frame k and writing its saturated sums at slot `sample_start` keeps the loop state |
| Mixer.FillRing | src/3DS/i_sound.c:384-453 | The frame loop ends with `sample_start` at the hardware position, having written exactly the frames of the ring distance at consecutive slots |
| Mixer.FramesAtSlots | src/3DS/i_sound.c:388-448 | The values read back at each written slot are that frame's saturated left and right sums |
| Mixer.SilentOut | src/3DS/i_sound.c:392-448 | With no active channel every written sample is 0 |
| Mixer.UpdateSound | src/3DS/i_sound.c:361-454 | Uninitialised, nothing changes. Otherwise it writes exactly the ring-distance frames from `sample_start`, each the saturated channel sum, and leaves every other frame alone. It ends at the hardware position and keeps validity and lock balance; with no active channel it writes silence |
| Extensions.LastDot | src/3DS/i_menu.c:212 | `strrchr(name, '.')`: the index of a '.' with no '.' after it, or none when the name has no '.' |
| Extensions.HasExtensionMeaning | src/3DS/i_menu.c:212-214 | The test accepts a name exactly when its last '.' is followed by three characters that lower-case to the extension; the NUL terminator never matches |
| Extensions.NoDotNoExtension | src/3DS/i_menu.c:212-214 | A name without '.' is neither a WAD nor a DEH file |
| Extensions.WadNotDeh | src/3DS/i_menu.c:213-214 | No name passes both tests |
| Extensions.ExtensionSuffix | src/3DS/i_menu.c:212-214 | Any name ending in '.', three letters matching the extension in either case, and a dot-free tail passes |
| Extensions.WadVariants | src/3DS/i_menu.c:545-546 | ".WAD" passes as a WAD since case is folded, and so does ".wadx" since only three characters are compared |
| Extensions.DirFiles | src/3DS/i_menu.c:205-219 | The listing keeps, in directory order, exactly the entries that pass the WAD or DEH test |
| Extensions.DirFilesAppend | src/3DS/i_menu.c:394-396 | Listing the three directories one after another lists each directory's files in turn |
| MenuItems.TablesFit | src/3DS/i_menu.c:98-172 | Every item of both tables points at its own variable with that variable's list or min/max/step |
| MenuItems.InitialMenuInv | src/3DS/i_menu.c:83-172 | The initial values name entries of their lists and lie on their integer grids, so the loop starts sound once an IWAD is found |
| MenuItems.ChoiceMoves | src/3DS/i_menu.c:477-496 | LEFT and RIGHT on a choice keep the index on a string of the list, moving by one except at the respective end |
| MenuItems.ChoiceRoundTrip | src/3DS/i_menu.c:477-496 | RIGHT undoes LEFT away from the first entry, and LEFT undoes RIGHT away from the last |
| MenuItems.IntStaysOnGrid | src/3DS/i_menu.c:483-500 | When the value and `max` lie on the grid min, min+step, ..., LEFT and RIGHT keep the value on it, hence in [min, max] |
| MenuItems.IntOffGridOvershoots | src/3DS/i_menu.c:498-500 | Off the grid the bound fails: turbo 395 steps to 405 |
| MenuItems.GridEnds | src/3DS/i_menu.c:161-169 | The `max` of each integer item lies on its grid |
| MenuItems.AdjustKeepsSettings | src/3DS/i_menu.c:477-505 | LEFT or RIGHT on an item that fits its variable keeps every setting in range |
| MenuItems.MenuKeyKeepsInv | src/3DS/i_menu.c:471-523 | Whatever keys are down, the cursor stays on an item of the shown table and every setting stays in range. Opening the PWAD list changes nothing, and the game starts with settings in range |
| MenuItems.NoDataIgnoresLeftRight | src/3DS/i_menu.c:477-523 | On an item with a NULL `data` pointer, LEFT and RIGHT are ignored and the poll is decided by the other keys |
| MenuItems.BackToMain | src/3DS/i_menu.c:518-523 | B on the extra table returns to the main table's first item and keeps every setting |
| MenuItems.ToggleTwice | src/3DS/i_menu.c:507-509 | A on a yes/no item flips it, and a second A restores the state |
| PwadList.CursorMoves | src/3DS/i_menu.c:326-330 | UP and DOWN move the cursor by one within the reachable rows and leave the files as they were |
| PwadList.MoveUpMeaning | src/3DS/i_menu.c:335-342 | L swaps the file under the cursor with the one above it, and the cursor follows the file. The count and the multiset of files are kept |
| PwadList.MoveDownMeaning | src/3DS/i_menu.c:344-351 | R swaps the file under the cursor with the one below it, and the cursor follows the file. The count and the multiset of files are kept |
| PwadList.MoveRoundTrip | src/3DS/i_menu.c:335-351 | L and R undo each other, and each changes nothing where its guard fails |
| PwadList.RemoveMeaning | src/3DS/i_menu.c:353-360 | Corrected Y: on a file row, exactly that file is dropped, the others keep their order and the cursor stays. On the "(add new...)" row nothing changes |
| PwadList.SetFileMeaning | src/3DS/i_menu.c:265-267 | Choosing a file for the cursor's row appends it on the "(add new...)" row and replaces the file on any other row |
| PwadList.ListKeyKeepsInv | src/3DS/i_menu.c:326-364 | With Y as corrected (`PwadList.Remove`), every key keeps the list shape: the first `count` slots hold files, the rest are NULL, and the cursor is on a reachable row. Y as written breaks it on the "(add new...)" row (`PwadList.RemoveAsWrittenOnNewRow`) |
| PwadList.ShiftMeaning | src/3DS/i_menu.c:355-356 | Inside the array, the shift loop moves every slot from the cursor up to the count one place down |
| PwadList.ShiftFaultsOnFullList | src/3DS/i_menu.c:355-356 | With 20 files the shift loop reads `addfiles[20]`, whatever the cursor row |
| PwadList.RemoveAsWrittenAgrees | src/3DS/i_menu.c:353-360 | On a file row of a list that is not full, Y as written equals the corrected remove |
| PwadList.RemoveAsWrittenFullList | src/3DS/i_menu.c:353-360 | Y as written on a full list accesses `addfiles[20]`, one past the array |
| PwadList.RemoveAsWrittenOnNewRow | src/3DS/i_menu.c:353-360 | Y as written on the "(add new...)" row of a non-empty list decrements the count while the slots stay as they were. The last file drops out and the cursor leaves the reachable rows |
| PwadList.RemoveAsWrittenLosesFile | src/3DS/i_menu.c:353-360 | With one file and the cursor on "(add new...)", Y as written empties the list |
| FileBrowser.StateFromIndex | src/3DS/i_menu.c:251-284 | The browser state is the page of the cursor index and the row within it |
| FileBrowser.UpKeepsInv | src/3DS/i_menu.c:251-257 | UP keeps the cursor on a page row and, when there are files, on a file |
| FileBrowser.UpMeaning | src/3DS/i_menu.c:251-257 | UP moves the file index back by one, except on the first file |
| FileBrowser.DownKeepsInv | src/3DS/i_menu.c:259-263 | DOWN keeps the cursor on a page row and on a file |
| FileBrowser.DownMeaning | src/3DS/i_menu.c:259-263 | DOWN moves the file index forward by one, except on the last file |
| FileBrowser.PageUpKeepsInv | src/3DS/i_menu.c:270-276 | L keeps the cursor on a page row and on a file |
| FileBrowser.PageUpMeaning | src/3DS/i_menu.c:270-276 | L moves the file index back by 25 when it is past the first page |
| FileBrowser.PageDownKeepsInv | src/3DS/i_menu.c:278-284 | R keeps the cursor on a page row and on a file |
| FileBrowser.PageDownMeaning | src/3DS/i_menu.c:278-284 | When a next page exists R moves the file index forward by 25, stopping at the last file; otherwise it changes nothing |
| FileBrowser.DownThenUp | src/3DS/i_menu.c:251-263 | UP undoes DOWN wherever DOWN moved, across page boundaries included |
| FileBrowser.SelectAsWrittenEmpty | src/3DS/i_menu.c:265-266 | A as written with no file found reads through the NULL `filelist` |
| FileBrowser.BrowseKeyKeepsInv | src/3DS/i_menu.c:251-288 | Every key that leaves the browser open keeps its shape |
| FileBrowser.BrowseKeySelects | src/3DS/i_menu.c:265-268 | A selection is always the index of a listed file, the one A reads. The browser closes without a selection only on B or when no file was found |
| FileBrowser.DecisiveIsFirst | src/3DS/i_menu.c:251-288 | The key that decides a poll is one that is down, B decides only when none of UP, DOWN, A, L, R is down, and no key decides exactly when none of the six is down |
| LaunchArgs.NatToStringDigits | src/3DS/i_menu.c:194-198 | `%d` of a natural number is a non-empty digit string, with no leading zero, whose value is the number |
| LaunchArgs.IntToStringRoundTrip | src/3DS/i_menu.c:194-198 | Every number `%d` prints reads back as itself |
| LaunchArgs.FoundIwads | src/3DS/i_menu.c:377-386 | The offered IWADs are exactly the standard IWADs that are present, at most as many as the table holds |
| LaunchArgs.SettingsGiveIndices | src/3DS/i_menu.c:526-538 | Settings kept by the menu index real entries of the width, height, depth and IWAD lists |
| LaunchArgs.AddFiles | src/3DS/i_menu.c:540-578 | Each file loop appends its flag once, before the first match, then the resolved name of every match in selection order, and nothing when no file matches |
| LaunchArgs.FileArgsMeaning | src/3DS/i_menu.c:540-578 | The file arguments for an extension are exactly the resolved names of the chosen files that pass its test, at most one per file |
| LaunchArgs.FilesPassedOnce | src/3DS/i_menu.c:540-578 | No chosen file is passed both as `-file` and as `-deh` |
| LaunchArgs.NumbersReadBack | src/3DS/i_menu.c:580-611 | The complevel (0..17), the one-based skill (1..5) and the turbo percentage (10..400) on the command line read back as the menu's values |
| LaunchArgs.ArgvFrame | src/3DS/i_menu.c:526-611 | argv starts with the program name and the `-width`, `-height`, `-vidmode` and `-iwad` pairs, each followed by the chosen entry of its list; when turbo is not 100 it ends with `-turbo` and the percentage |

## Left out

- NDSP device setup and teardown (`I_InitSound`, `I_ShutdownSound`) are hardware calls. `sound_inited` is a field of `Mixer.MixerState`, and the position `ndspChnGetSamplePos` reports is the `hwPos` parameter. `Mixer.FillRing` and `Mixer.UpdateSound` require `hwPos` inside the 512-frame buffer, which NDSP guarantees; any other value would keep the `sample_start != sample_end` loop from ending.
- The pitch step table of `I_SetChannels` is built with `pow` on doubles. `steptable` is an input sequence.
- The music API consists of empty stubs.
- `I_GetSfxLumpNum` is `sprintf` plus a WAD directory lookup.
- `W_LockLumpNum`, `W_UnlockLumpNum`, `W_LumpLength` and `S_sfx` belong to the WAD layer, which is not part of this model. Each lump is given as its bytes, and the locks are the `locked` multiset.
- `numChannels`, `pitched_sounds`, `snd_samplerate` and `gametic` are engine globals. They are parameters here.
- The callback and the game code share the channel array without synchronisation. Every operation is modelled as one sequential step.
- The screen drawing, `hidKeysDown` polling and the loops that repeat the polls are not modelled.
  - One poll of each loop is one function application.
  - `down` is the set of keys pressed; for the browser, `FileBrowser.Decisive` picks the key that decides.
  - The browser run by A in the PWAD list is the `chosen` argument of `PwadList.ListKey`.
- `opendir`/`readdir` are a sequence of names. `I_FindFile` is a set of present IWADs and a map from chosen names to found paths.
- Memory management (`realloc`, `strdup`, `free`, `I_Cleanup`) is not modelled; argv and file lists are sequences.
- `PACKAGE` comes from config.h, and `standard_iwads` from d_main.c, which are not part of this model. They are the `package` and `standard` parameters.
- The early return when no IWAD is found (`i_menu.c` lines 388-391) is not modelled: the menu model starts from a non-empty IWAD list.
- `LaunchArgs.AddFiles` is the imperative form of the two file loops only. The rest of lines 526-611 is the function `LaunchArgs.Argv`, stated by lemmas.
- `LaunchArgs.FoundIwads` requires at most 15 standard IWADs: `gameWadVals` has 16 entries including its NULL terminator.
- PwadList.ListKey: Y is modelled as the corrected `PwadList.Remove`. The as-written Y of lines 355-359 is `PwadList.RemoveAsWritten`, which can index past the array or break the list shape, so `PwadList.ListKeyKeepsInv` is stated for the corrected key only.
- FileBrowser.BrowseKey: A with no file found cancels. The as-written read through the NULL `filelist` is `FileBrowser.SelectAsWrittenEmpty`.
- `ChannelPool.StepMeaning`: it gives the pitched step exactly only when no 32-bit wrap occurs. `ChannelPool.StepFor` itself models the wrap.
- `src/3DS/i_video.c`, `src/3DS/i_main.c`, `src/3DS/i_joy.c` and `src/lprintf.c` are not part of this model: framebuffer, startup, joystick and console code.

Places where the code behaves unexpectedly and the model follows the code. The exceptions are Y in `PwadList.ListKey` and A in `FileBrowser.BrowseKey`, which follow the corrected behaviour listed under "## Findings":
- `addsfx` places `enddata` at `lump + len - 1`, with `len` already reduced by the 8-byte header. This is 9 bytes before the lump's end, not at the end of the payload. Mixing stops once the cursor reaches it.
- `I_SetChannels` zeroes the slots without calling `stopchan`, so an outstanding lump lock is not given back (`ChannelPool.ResetValidIffNoLocks`).
- LEFT on a choice item also requires the entry before the index to be non-NULL. For an index inside the list this always holds.
- LEFT and RIGHT are handled only when the selected item has a `data` pointer.

## Findings

| source | as written | input that shows it | evidently intended | confidence | as-written member | corrected member |
|---|---|---|---|---|---|---|
| src/3DS/i_menu.c:355-359 | Y shifts while `i < addfilescount && i < MAX_PWADS`, reading `addfiles[i+1]`, then clears `addfiles[addfilescount--]` | 20 files in the list, Y on any row | the shift stops at the last file and the freed slot is `addfiles[count-1]` | high; not executed | PwadList.RemoveAsWrittenFullList | PwadList.RemoveMeaning |
| src/3DS/i_menu.c:358-359 | Y decrements `addfilescount` even when the cursor is on the "(add new...)" row | one file, cursor on row 2, Y | Y on the "(add new...)" row removes nothing | high; not executed | PwadList.RemoveAsWrittenLosesFile | PwadList.RemoveMeaning |
| src/3DS/i_menu.c:265-266 | A reads `filelist[from + menupos]` also when no file was found and `filelist` is NULL | no .wad or .deh file in ".", `I_DoomExeDir()` or `DOOMWADDIR`, A in the browser. The menu only runs once `I_FindFile` has found an IWAD, so that IWAD must lie elsewhere, for example on a path set in the environment; `I_FindFile` is in i_system.c, which is not part of this model | A selects nothing when the list is empty | medium; not executed | FileBrowser.SelectAsWrittenEmpty | FileBrowser.BrowseKeySelects |

=== FILE: channel_pool.dfy ===
/**
 * The fixed pool of mixing channels and the playback-control operations
 * that the sound layer calls: start (addsfx + updateSoundParams), stop,
 * and the two "is playing" queries, plus the channel reset of
 * I_SetChannels.
 *
 * A channel's `data`/`enddata` pointers become indices into the lump bytes
 * the channel was started with; a NULL `data` is `None`. The lump locks
 * taken with W_LockLumpNum and given back with W_UnlockLumpNum are kept as
 * the multiset `locked` of sound ids whose lumps are currently locked.
 */
module ChannelPool {
  import opened CInt
  import opened Wrappers
  import opened VolumeTable

  const MAX_CHANNELS: int := 32
  /** Size of the sound lump header that precedes the samples. */
  const HEADER_SIZE: int := 8
  /** 1.0 in the 16.16 fixed-point format of `step` and `stepremainder`. */
  const FRAC_ONE: int := 0x10000

  datatype Channel = Channel(
    id: int,             // sound effect id, also names the locked lump
    step: int,           // unsigned 16.16 cursor increment per output frame
    stepRemainder: int,  // fractional part of the cursor, below FRAC_ONE
    sampleRate: int,     // source rate read from the lump header
    data: Option<int>,   // read cursor into `lump`; None while the slot is empty
    endData: int,        // index at which playback ends
    lump: seq<byte>,     // the locked lump, header included
    startTime: int,      // gametic at which the sound started
    leftVol: int,        // gain row addressed by the left lookup pointer
    rightVol: int)       // gain row addressed by the right lookup pointer
  {
    predicate Active() {
      data.Some?
    }
  }

  /**
   * A slot as memset to zero: NULL data, every number 0. The NULL
   * `leftvol_lookup`/`rightvol_lookup` pointers become gain row 0; no
   * operation reads the gains of a slot with NULL data.
   */
  const EmptyChannel: Channel := Channel(0, 0, 0, 0, None, 0, [], 0, 0, 0)

  datatype Pool = Pool(chans: seq<Channel>, locked: multiset<int>)

  /** The lock a channel holds: its id while it is active, nothing otherwise. */
  function Held(c: Channel): multiset<int> {
    if c.Active() then multiset{c.id} else multiset{}
  }

  /** The ids of all active channels, with multiplicity. */
  function ActiveIds(cs: seq<Channel>): multiset<int>
    decreases |cs|
  {
    if |cs| == 0 then multiset{} else Held(cs[0]) + ActiveIds(cs[1..])
  }

  /** The per-slot invariant: cursor inside its lump, fraction below one, gains addressing real rows. */
  ghost predicate WellFormed(c: Channel) {
    && IsU32(c.step)
    && 0 <= c.stepRemainder < FRAC_ONE
    && IsGain(c.leftVol)
    && IsGain(c.rightVol)
    && (c.Active() ==>
          && |c.lump| > HEADER_SIZE
          && c.endData == |c.lump| - HEADER_SIZE - 1
          && HEADER_SIZE <= c.data.value < |c.lump|)
  }

  /** The shape invariant: MAX_CHANNELS slots, each well-formed. */
  ghost predicate Valid(p: Pool) {
    && |p.chans| == MAX_CHANNELS
    && (forall i :: 0 <= i < |p.chans| ==> WellFormed(p.chans[i]))
  }

  /** The lock invariant: exactly one outstanding lump lock per active slot, and no other. */
  ghost predicate Balanced(p: Pool) {
    p.locked == ActiveIds(p.chans)
  }

  lemma {:induction false} ActiveIdsUpdate(cs: seq<Channel>, i: int, c: Channel)
    requires 0 <= i < |cs|
    ensures ActiveIds(cs[i := c]) + Held(cs[i]) == ActiveIds(cs) + Held(c)
    decreases i
  {
    var cs' := cs[i := c];
    var tail, tail' := cs[1..], cs'[1..];
    assert ActiveIds(cs') == Held(cs'[0]) + ActiveIds(tail');
    assert ActiveIds(cs) == Held(cs[0]) + ActiveIds(tail);
    if i == 0 {
      assert tail' == tail;
      UnionSwap(Held(c), ActiveIds(tail), Held(cs[0]));
    } else {
      assert ActiveIds(tail') + Held(cs[i]) == ActiveIds(tail) + Held(c) by {
        assert tail' == tail[i - 1 := c] && tail[i - 1] == cs[i];
        ActiveIdsUpdate(tail, i - 1, c);
      }
      assert cs'[0] == cs[0];
      UnionShift(Held(cs[0]), ActiveIds(tail), ActiveIds(tail'), Held(cs[i]), Held(c));
    }
  }

  /** Exchanging the first and last of three summands keeps the sum. */
  lemma UnionSwap(a: multiset<int>, t: multiset<int>, b: multiset<int>)
    ensures (a + t) + b == (b + t) + a
  {
    forall e
      ensures ((a + t) + b)[e] == ((b + t) + a)[e]
    {
    }
  }

  /** Adding the same multiset in front keeps an equation between sums. */
  lemma UnionShift(a: multiset<int>, t: multiset<int>, t': multiset<int>, x: multiset<int>, y: multiset<int>)
    requires t' + x == t + y
    ensures (a + t') + x == (a + t) + y
  {
    forall e
      ensures ((a + t') + x)[e] == ((a + t) + y)[e]
    {
      assert (t' + x)[e] == (t + y)[e];
    }
  }

  /** An active slot's id is among the active ids. */
  lemma {:induction false} HeldIncluded(cs: seq<Channel>, i: int)
    requires 0 <= i < |cs|
    ensures Held(cs[i]) <= ActiveIds(cs)
    decreases i
  {
    assert ActiveIds(cs) == Held(cs[0]) + ActiveIds(cs[1..]);
    if i > 0 {
      assert cs[1..][i - 1] == cs[i];
      HeldIncluded(cs[1..], i - 1);
    }
  }

  lemma MultisetRestore(l: multiset<int>, h: multiset<int>, x: multiset<int>)
    requires h <= l
    ensures ((l + x) - h) + h == l + x
  {
    forall e
      ensures (((l + x) - h) + h)[e] == (l + x)[e]
    {
      assert h[e] <= l[e];
    }
  }

  lemma MultisetCancel(a: multiset<int>, b: multiset<int>, x: multiset<int>)
    requires a + x == b + x
    ensures a == b
  {
    forall e
      ensures a[e] == b[e]
    {
      assert (a + x)[e] == (b + x)[e];
    }
  }

  /** Replacing one slot of a valid pool by a well-formed slot keeps the pool valid. */
  lemma SetSlotValid(p: Pool, i: int, c: Channel, locked: multiset<int>)
    requires Valid(p)
    requires 0 <= i < |p.chans|
    requires WellFormed(c)
    ensures Valid(Pool(p.chans[i := c], locked))
  {
    var cs := p.chans[i := c];
    forall j | 0 <= j < |cs|
      ensures WellFormed(cs[j])
    {
      if j != i {
        assert cs[j] == p.chans[j];
      }
    }
  }

  /**
   * Replacing one slot of a balanced pool keeps it balanced when the lock
   * multiset changes by exactly the lock the old slot held and the new one holds.
   */
  lemma SetSlotBalanced(p: Pool, i: int, c: Channel, locked: multiset<int>)
    requires Balanced(p)
    requires 0 <= i < |p.chans|
    requires locked + Held(p.chans[i]) == p.locked + Held(c)
    ensures Balanced(Pool(p.chans[i := c], locked))
  {
    ActiveIdsUpdate(p.chans, i, c);
    MultisetCancel(ActiveIds(p.chans[i := c]), locked, Held(p.chans[i]));
  }

  /** No lock is outstanding exactly when no slot is active. */
  lemma {:induction false} ActiveIdsEmpty(cs: seq<Channel>)
    ensures ActiveIds(cs) == multiset{} <==> forall i :: 0 <= i < |cs| ==> !cs[i].Active()
    decreases |cs|
  {
    if |cs| > 0 {
      ActiveIdsEmpty(cs[1..]);
      assert forall i :: 1 <= i < |cs| ==> cs[i] == cs[1..][i - 1];
    }
  }

  /** stopchan: an active slot gives back its lump lock and becomes empty; an empty slot is left alone. */
  function StopChan(p: Pool, i: int): (r: Pool)
    requires 0 <= i < |p.chans|
    ensures |r.chans| == |p.chans|
    ensures !r.chans[i].Active()
    ensures forall j :: 0 <= j < |p.chans| && j != i ==> r.chans[j] == p.chans[j]
    ensures r.chans[i].(data := p.chans[i].data) == p.chans[i]
    ensures r.locked == p.locked - Held(p.chans[i])
    ensures !p.chans[i].Active() ==> r == p
  {
    if p.chans[i].data.Some? then
      Pool(p.chans[i := p.chans[i].(data := None)], p.locked - multiset{p.chans[i].id})
    else
      p
  }

  lemma StopChanValid(p: Pool, i: int)
    requires 0 <= i < |p.chans|
    ensures Valid(p) ==> Valid(StopChan(p, i))
    ensures Balanced(p) ==> Balanced(StopChan(p, i))
  {
    var c := p.chans[i].(data := None);
    if p.chans[i].Active() {
      if Valid(p) {
        SetSlotValid(p, i, c, p.locked - multiset{p.chans[i].id});
      }
      if Balanced(p) {
        HeldIncluded(p.chans, i);
        MultisetRestore(p.locked, Held(p.chans[i]), multiset{});
        assert p.locked + multiset{} == p.locked;
        assert (p.locked - multiset{p.chans[i].id}) + Held(p.chans[i]) == p.locked + Held(c);
        SetSlotBalanced(p, i, c, p.locked - multiset{p.chans[i].id});
      }
    }
  }

  /**
   * A stop releases at most one lock, exactly the stopped slot's, and a
   * second stop of the same slot changes nothing and releases nothing.
   */
  lemma StopChanIdempotent(p: Pool, i: int)
    requires Balanced(p)
    requires 0 <= i < |p.chans|
    ensures StopChan(StopChan(p, i), i) == StopChan(p, i)
    ensures p.chans[i].Active() ==>
              && |StopChan(p, i).locked| == |p.locked| - 1
              && StopChan(p, i).locked[p.chans[i].id] == p.locked[p.chans[i].id] - 1
    ensures !p.chans[i].Active() ==> StopChan(p, i).locked == p.locked
  {
    HeldIncluded(p.chans, i);
  }

  /**
   * addsfx: releases whatever the slot held, then binds it to `lump`
   * (length `len` + 8; `len` already excludes the header). The source rate
   * is the little-endian 16-bit value at bytes 2..3, the cursor starts just
   * past the header, and the end pointer is computed from the lump start
   * as `lump + len - 1`.
   */
  function AddSfx(p: Pool, sfxId: int, channel: int, lump: seq<byte>, len: int, gametic: int): (r: Pool)
    requires 0 <= channel < |p.chans|
    requires len >= 1 && |lump| == len + HEADER_SIZE
    ensures |r.chans| == |p.chans|
    ensures forall j :: 0 <= j < |p.chans| && j != channel ==> r.chans[j] == p.chans[j]
    ensures r.chans[channel].Active() && r.chans[channel].data.value == HEADER_SIZE
    ensures r.chans[channel].endData == |lump| - HEADER_SIZE - 1
    ensures r.chans[channel].sampleRate % 256 == lump[2] && r.chans[channel].sampleRate / 256 == lump[3]
    ensures r.chans[channel].stepRemainder == 0
    ensures r.chans[channel].lump == lump && r.chans[channel].id == sfxId
    ensures r.chans[channel].startTime == gametic
    ensures r.chans[channel].step == p.chans[channel].step
    ensures r.chans[channel].leftVol == p.chans[channel].leftVol
    ensures r.chans[channel].rightVol == p.chans[channel].rightVol
    ensures r.locked == p.locked - Held(p.chans[channel])
  {
    var q := StopChan(p, channel);
    var c := q.chans[channel].(
      data := Some(HEADER_SIZE),
      endData := len - 1,
      sampleRate := (lump[3] as int) * 256 + (lump[2] as int),
      stepRemainder := 0,
      startTime := gametic,
      id := sfxId,
      lump := lump);
    Pool(q.chans[channel := c], q.locked)
  }

  datatype GainError = RightVolOutOfBounds | LeftVolOutOfBounds

  /** `(volume * s * s) >> 16`; `>>` on a negative int is the arithmetic shift, a floor division. */
  function Attenuation(volume: int, s: int): int {
    (volume * s * s) / 0x10000
  }

  /**
   * The stereo gains of updateSoundParams: with s = separation + 1,
   * left = volume - (volume*s*s >> 16) and, with s - 257 in place of s,
   * right likewise. An out-of-range result is the fatal I_Error, the right
   * gain being checked first.
   */
  function Gains(volume: int, separation: int): Result<(int, int), GainError> {
    var s := separation + 1;
    var left := volume - Attenuation(volume, s);
    var s' := s - 257;
    var right := volume - Attenuation(volume, s');
    if right < 0 || right > 127 then Failure(RightVolOutOfBounds)
    else if left < 0 || left > 127 then Failure(LeftVolOutOfBounds)
    else Success((left, right))
  }

  /** Neither I_Error branch of updateSoundParams fires. */
  predicate GainsOk(volume: int, separation: int) {
    Gains(volume, separation).Success?
  }

  lemma AttenuationNegated(v: int, s: int)
    ensures Attenuation(v, -s) == Attenuation(v, s)
  {
    assert v * (-s) * (-s) == v * s * s;
  }

  lemma AttenuationBounds(v: int, s: int)
    requires 0 <= v <= 127
    requires 1 <= s <= 256
    ensures 0 <= Attenuation(v, s) <= v
  {
    assert 1 <= s * s <= 0x10000 by {
      assert s * s <= 256 * s;
    }
    assert v * s * s == v * (s * s);
    assert v * (s * s) <= v * 0x10000;
  }

  lemma AttenuationMonotone(v: int, s: int, t: int)
    requires 0 <= v
    requires 0 <= s <= t
    ensures Attenuation(v, s) <= Attenuation(v, t)
  {
    assert s * s <= t * t by {
      assert s * s <= s * t <= t * t;
    }
    assert v * (s * s) <= v * (t * t);
    assert v * s * s == v * (s * s);
    assert v * t * t == v * (t * t);
  }

  /**
   * For the volume and separation ranges the sound layer passes (0..127,
   * 0..255) both gains land in 0..127 and never exceed the volume, so the
   * I_Error branches are unreachable.
   */
  lemma GainsInRange(volume: int, separation: int)
    requires 0 <= volume <= 127
    requires 0 <= separation <= 255
    ensures GainsOk(volume, separation)
    ensures 0 <= Gains(volume, separation).value.0 <= volume
    ensures 0 <= Gains(volume, separation).value.1 <= volume
  {
    var s := separation + 1;
    AttenuationBounds(volume, s);
    AttenuationBounds(volume, 257 - s);
    AttenuationNegated(volume, 257 - s);
  }

  /** Separation 0 is hard left and 255 hard right: the whole volume goes to one side. */
  lemma GainsHardPan(volume: int)
    requires 0 <= volume <= 127
    ensures Gains(volume, 0) == Success((volume, 0))
    ensures Gains(volume, 255) == Success((0, volume))
  {
    assert Attenuation(volume, 1) == 0 by {
      assert volume * 1 * 1 == volume;
    }
    assert Attenuation(volume, 256) == volume by {
      assert volume * 256 * 256 == volume * 0x10000;
    }
    AttenuationNegated(volume, 256);
    AttenuationNegated(volume, 1);
  }

  /** Moving the separation to the right never raises the left gain nor lowers the right one. */
  lemma GainsPanMonotone(volume: int, sep: int, sep': int)
    requires 0 <= volume <= 127
    requires 0 <= sep <= sep' <= 255
    ensures GainsOk(volume, sep) && GainsOk(volume, sep')
    ensures Gains(volume, sep').value.0 <= Gains(volume, sep).value.0
    ensures Gains(volume, sep).value.1 <= Gains(volume, sep').value.1
  {
    GainsInRange(volume, sep);
    GainsInRange(volume, sep');
    AttenuationMonotone(volume, sep + 1, sep' + 1);
    AttenuationMonotone(volume, 256 - sep', 256 - sep);
    AttenuationNegated(volume, 256 - sep);
    AttenuationNegated(volume, 256 - sep');
  }

  /**
   * The channel step: the source-to-output rate ratio in 16.16 fixed point
   * (`(samplerate << 16) / snd_samplerate`, all unsigned), offset by the
   * pitch table entry minus 1.0 when pitched sounds are enabled. The
   * unsigned arithmetic wraps modulo 2^32.
   */
  function StepFor(pitched: bool, stepEntry: int, sampleRate: int, outputRate: int): (r: int)
    requires outputRate > 0
    ensures IsU32(r)
  {
    var ratio := U32(sampleRate * FRAC_ONE) / outputRate;
    if pitched then U32(stepEntry + U32(ratio - FRAC_ONE)) else ratio
  }

  lemma U32AddInner(a: int, b: int)
    ensures U32(a + U32(b)) == U32(a + b)
  {
    var w := U32(b);
    var d := (w - b) / UINT32_MODULUS;
    assert w - b == d * UINT32_MODULUS;
    assert (a + w) % UINT32_MODULUS == (a + b + d * UINT32_MODULUS) % UINT32_MODULUS;
  }

  lemma RateRatio(sampleRate: int, outputRate: int)
    requires outputRate > 0
    requires 0 <= sampleRate < FRAC_ONE
    ensures U32(sampleRate * FRAC_ONE) / outputRate == (sampleRate * FRAC_ONE) / outputRate
    ensures sampleRate == outputRate ==> (sampleRate * FRAC_ONE) / outputRate == FRAC_ONE
  {
    assert 0 <= sampleRate * FRAC_ONE < UINT32_MODULUS;
    if sampleRate == outputRate {
      DivExact(FRAC_ONE, outputRate);
    }
  }

  lemma DivExact(k: int, b: int)
    requires b > 0 && k >= 0
    ensures (k * b) / b == k
  {
    var q := (k * b) / b;
    var r := (k * b) % b;
    assert q * b + r == k * b;
    assert (k - q) * b == r;
    if k - q > 0 {
      MulAtLeast(k - q, b);
    } else if k - q < 0 {
      MulAtLeast(q - k, b);
    }
  }

  lemma MulAtLeast(a: int, b: int)
    requires a >= 1 && b > 0
    ensures a * b >= b
  {
  }

  /**
   * Without pitching the step is the exact floored rate ratio, so equal
   * rates advance one sample per frame; with pitching and no wrap-around it
   * is that ratio plus the table entry minus one, so equal rates give the
   * table entry itself.
   */
  lemma StepMeaning(pitched: bool, stepEntry: int, sampleRate: int, outputRate: int)
    requires outputRate > 0
    requires 0 <= sampleRate < FRAC_ONE
    ensures !pitched ==> StepFor(pitched, stepEntry, sampleRate, outputRate) == (sampleRate * FRAC_ONE) / outputRate
    ensures !pitched && sampleRate == outputRate ==> StepFor(pitched, stepEntry, sampleRate, outputRate) == FRAC_ONE
    ensures pitched && IsU32(stepEntry + (sampleRate * FRAC_ONE) / outputRate - FRAC_ONE) ==>
              StepFor(pitched, stepEntry, sampleRate, outputRate) == stepEntry + (sampleRate * FRAC_ONE) / outputRate - FRAC_ONE
    ensures pitched && sampleRate == outputRate && IsU32(stepEntry) ==>
              StepFor(pitched, stepEntry, sampleRate, outputRate) == stepEntry
  {
    RateRatio(sampleRate, outputRate);
    var ratio := (sampleRate * FRAC_ONE) / outputRate;
    assert U32(sampleRate * FRAC_ONE) / outputRate == ratio;
    if pitched {
      U32AddInner(stepEntry, ratio - FRAC_ONE);
      assert StepFor(pitched, stepEntry, sampleRate, outputRate) == U32(stepEntry + (ratio - FRAC_ONE));
    }
  }

  /**
   * updateSoundParams: sets the step for `pitch` and points the two lookup
   * pointers at the gain rows for `volume` and `separation`. Nothing else in
   * the slot, and no other slot, changes.
   */
  function UpdateSoundParams(p: Pool, handle: int, volume: int, separation: int, pitch: int,
                             pitched: bool, steptable: seq<int>, outputRate: int): (r: Pool)
    requires 0 <= handle < |p.chans|
    requires 0 <= pitch < |steptable|
    requires outputRate > 0
    requires GainsOk(volume, separation)
    ensures |r.chans| == |p.chans| && r.locked == p.locked
    ensures forall j :: 0 <= j < |p.chans| && j != handle ==> r.chans[j] == p.chans[j]
    ensures r.chans[handle].(step := p.chans[handle].step,
                             leftVol := p.chans[handle].leftVol,
                             rightVol := p.chans[handle].rightVol) == p.chans[handle]
    ensures r.chans[handle].step == StepFor(pitched, steptable[pitch], p.chans[handle].sampleRate, outputRate)
    ensures (r.chans[handle].leftVol, r.chans[handle].rightVol) == Gains(volume, separation).value
    ensures IsU32(r.chans[handle].step)
    ensures IsGain(r.chans[handle].leftVol) && IsGain(r.chans[handle].rightVol)
    ensures Valid(p) ==> Valid(r)
    ensures Balanced(p) ==> Balanced(r)
  {
    var g := Gains(volume, separation).value;
    var c := p.chans[handle].(
      step := StepFor(pitched, steptable[pitch], p.chans[handle].sampleRate, outputRate),
      leftVol := g.0,
      rightVol := g.1);
    var r := Pool(p.chans[handle := c], p.locked);
    assert Valid(p) ==> Valid(r) by {
      if Valid(p) {
        GainsWellFormed(volume, separation);
        SetSlotValid(p, handle, c, p.locked);
      }
    }
    assert Balanced(p) ==> Balanced(r) by {
      if Balanced(p) {
        SetSlotBalanced(p, handle, c, p.locked);
      }
    }
    r
  }

  lemma GainsWellFormed(volume: int, separation: int)
    requires GainsOk(volume, separation)
    ensures IsGain(Gains(volume, separation).value.0)
    ensures IsGain(Gains(volume, separation).value.1)
  {
  }

  /** True when the arguments reach addsfx instead of an early `return -1`. */
  predicate StartAccepted(channel: int, lump: seq<byte>) {
    0 <= channel < MAX_CHANNELS && |lump| > HEADER_SIZE
  }

  /**
   * I_StartSound (build without RANGECHECK): returns -1 and changes nothing
   * for a channel outside 0..31 or a lump of at most 8 bytes; otherwise
   * locks the lump, binds the slot to it and sets its parameters, and
   * returns the channel. `lump` is the locked lump's bytes and `gametic`
   * the current tic.
   */
  function StartSound(p: Pool, id: int, channel: int, volume: int, separation: int, pitch: int,
                      lump: seq<byte>, gametic: int, pitched: bool, steptable: seq<int>,
                      outputRate: int): (r: (int, Pool))
    requires |p.chans| == MAX_CHANNELS
    requires StartAccepted(channel, lump) ==>
               0 <= pitch < |steptable| && outputRate > 0 && GainsOk(volume, separation)
    ensures r.0 == -1 <==> !StartAccepted(channel, lump)
    ensures r.0 == -1 ==> r.1 == p
    ensures r.0 != -1 ==>
              && r.0 == channel
              && |r.1.chans| == MAX_CHANNELS
              && r.1.chans[channel].Active()
              && r.1.chans[channel].id == id
              && r.1.chans[channel].lump == lump
              && (forall j :: 0 <= j < MAX_CHANNELS && j != channel ==> r.1.chans[j] == p.chans[j])
    ensures StartAccepted(channel, lump) ==>
              r.1.chans[channel].sampleRate == (lump[3] as int) * 256 + (lump[2] as int)
    ensures StartAccepted(channel, lump) ==>
              r.1.chans[channel].step == StepFor(pitched, steptable[pitch], r.1.chans[channel].sampleRate, outputRate)
    ensures StartAccepted(channel, lump) ==>
              (r.1.chans[channel].leftVol, r.1.chans[channel].rightVol) == Gains(volume, separation).value
  {
    if channel < 0 || channel >= MAX_CHANNELS then (-1, p)
    else if |lump| <= HEADER_SIZE then (-1, p)
    else
      var len := |lump| - HEADER_SIZE;
      var added := AddSfx(Pool(p.chans, p.locked + multiset{id}), id, channel, lump, len, gametic);
      var r := UpdateSoundParams(added, channel, volume, separation, pitch, pitched, steptable, outputRate);
      assert r.chans[channel].lump == lump && r.chans[channel].id == id && r.chans[channel].Active();
      (channel, r)
  }

  /**
   * Starting a sound keeps the pool valid and balanced: the slot's
   * previous lock (if any) is given back and exactly one lock on the new
   * sound's lump is taken.
   */
  lemma StartSoundValid(p: Pool, id: int, channel: int, volume: int, separation: int, pitch: int,
                        lump: seq<byte>, gametic: int, pitched: bool, steptable: seq<int>, outputRate: int)
    requires Valid(p) && Balanced(p)
    requires StartAccepted(channel, lump) ==>
               0 <= pitch < |steptable| && outputRate > 0 && GainsOk(volume, separation)
    ensures var r := StartSound(p, id, channel, volume, separation, pitch, lump, gametic,
                                pitched, steptable, outputRate);
            && Valid(r.1)
            && Balanced(r.1)
            && (r.0 != -1 ==> r.1.locked + Held(p.chans[channel]) == p.locked + multiset{id})
  {
    if StartAccepted(channel, lump) {
      BindValid(p, id, channel, lump, gametic);
    }
  }

  /** Locking a lump and binding a slot to it (lines 306-309) keeps a valid, balanced pool. */
  lemma BindValid(p: Pool, id: int, channel: int, lump: seq<byte>, gametic: int)
    requires Valid(p) && Balanced(p)
    requires 0 <= channel < |p.chans|
    requires |lump| > HEADER_SIZE
    ensures var added := AddSfx(Pool(p.chans, p.locked + multiset{id}), id, channel, lump, |lump| - HEADER_SIZE, gametic);
            && Valid(added)
            && Balanced(added)
            && added.locked + Held(p.chans[channel]) == p.locked + multiset{id}
  {
    var added := AddSfx(Pool(p.chans, p.locked + multiset{id}), id, channel, lump, |lump| - HEADER_SIZE, gametic);
    var c := added.chans[channel];
    HeldIncluded(p.chans, channel);
    MultisetRestore(p.locked, Held(p.chans[channel]), multiset{id});
    assert added.chans == p.chans[channel := c];
    SetSlotValid(p, channel, c, added.locked);
    SetSlotBalanced(p, channel, c, added.locked);
  }

  /** I_StopSound: stopchan on an in-range handle. */
  function StopSound(p: Pool, handle: int): (r: Pool)
    requires |p.chans| == MAX_CHANNELS
    requires 0 <= handle < MAX_CHANNELS
    ensures |r.chans| == MAX_CHANNELS
    ensures !SoundIsPlaying(r, handle)
    ensures Valid(p) ==> Valid(r)
    ensures Balanced(p) ==> Balanced(r)
  {
    StopChanValid(p, handle);
    StopChan(p, handle)
  }

  /** I_SoundIsPlaying: whether the slot's data pointer is non-NULL. */
  function SoundIsPlaying(p: Pool, handle: int): bool
    requires 0 <= handle < |p.chans|
  {
    p.chans[handle].Active()
  }

  /** In a balanced pool a playing handle holds a lock on its sound's lump. */
  lemma PlayingHoldsLock(p: Pool, handle: int)
    requires Balanced(p)
    requires 0 <= handle < |p.chans|
    ensures SoundIsPlaying(p, handle) ==> p.chans[handle].id in p.locked
  {
    HeldIncluded(p.chans, handle);
    if SoundIsPlaying(p, handle) {
      assert p.chans[handle].id in Held(p.chans[handle]);
    }
  }

  /**
   * A started sound is playing on the channel I_StartSound returned, and
   * stopping that channel makes it stop playing after exactly one unlock.
   */
  lemma StartThenStop(p: Pool, id: int, channel: int, volume: int, separation: int, pitch: int,
                      lump: seq<byte>, gametic: int, pitched: bool, steptable: seq<int>, outputRate: int)
    requires Valid(p) && Balanced(p)
    requires StartAccepted(channel, lump)
    requires 0 <= pitch < |steptable| && outputRate > 0 && GainsOk(volume, separation)
    ensures var (h, q) := StartSound(p, id, channel, volume, separation, pitch, lump, gametic,
                                     pitched, steptable, outputRate);
            && h == channel
            && SoundIsPlaying(q, h)
            && !SoundIsPlaying(StopSound(q, h), h)
            && StopSound(q, h).locked + multiset{id} == q.locked
  {
    var (h, q) := StartSound(p, id, channel, volume, separation, pitch, lump, gametic,
                             pitched, steptable, outputRate);
    StartSoundValid(p, id, channel, volume, separation, pitch, lump, gametic, pitched, steptable, outputRate);
    HeldIncluded(q.chans, h);
  }

  /** I_AnySoundStillPlaying: ORs the activity of all MAX_CHANNELS slots. */
  method AnySoundStillPlaying(p: Pool) returns (result: bool)
    requires |p.chans| == MAX_CHANNELS
    ensures result <==> exists i :: 0 <= i < MAX_CHANNELS && SoundIsPlaying(p, i)
  {
    result := false;
    var i := 0;
    while i < MAX_CHANNELS
      invariant 0 <= i <= MAX_CHANNELS
      invariant result <==> exists k :: 0 <= k < i && SoundIsPlaying(p, k)
    {
      assert SoundIsPlaying(p, i) == p.chans[i].data.Some?;
      result := result || p.chans[i].data.Some?;
      i := i + 1;
    }
  }

  /** In a balanced pool some sound is playing exactly when some lump lock is outstanding. */
  lemma PlayingIffLocked(p: Pool)
    requires Valid(p) && Balanced(p)
    ensures (exists i :: 0 <= i < MAX_CHANNELS && SoundIsPlaying(p, i)) <==> p.locked != multiset{}
  {
    ActiveIdsEmpty(p.chans);
    if p.locked != multiset{} {
      var i :| 0 <= i < |p.chans| && p.chans[i].Active();
      assert SoundIsPlaying(p, i);
    }
  }

  /**
   * The channel reset of I_SetChannels: every slot is zeroed (NULL data).
   * The slots are not stopped first, so any lump lock they held stays
   * outstanding; `locked` is carried over unchanged.
   */
  method ResetChannels(p: Pool) returns (r: Pool)
    ensures |r.chans| == MAX_CHANNELS
    ensures forall i :: 0 <= i < MAX_CHANNELS ==> !SoundIsPlaying(r, i)
    ensures r.locked == p.locked
  {
    var chans: seq<Channel> := [];
    var i := 0;
    while i < MAX_CHANNELS
      invariant 0 <= i <= MAX_CHANNELS
      invariant |chans| == i
      invariant forall k :: 0 <= k < i ==> chans[k] == EmptyChannel
    {
      chans := chans + [EmptyChannel];
      i := i + 1;
    }
    r := Pool(chans, p.locked);
  }

  /**
   * Resetting yields a valid pool, and a balanced one exactly when no lock
   * was outstanding: on a balanced pool with a playing sound the reset
   * leaks that sound's lock.
   */
  lemma ResetValidIffNoLocks(r: Pool, p: Pool)
    requires |r.chans| == MAX_CHANNELS
    requires forall i :: 0 <= i < MAX_CHANNELS ==> r.chans[i] == EmptyChannel
    requires r.locked == p.locked
    ensures Valid(r)
    ensures Balanced(r) <==> p.locked == multiset{}
  {
    ActiveIdsEmpty(r.chans);
  }
}

=== FILE: cint.dfy ===
/**
 * The parts of C integer semantics the mixer depends on: unsigned 32-bit
 * wrap-around, division that truncates toward zero, and the signed 16-bit
 * saturation applied to every mixed sample.
 */
module CInt {

  /** An unsigned 8-bit sample byte. */
  type byte = x: int | 0 <= x < 256

  const UINT32_MODULUS: int := 0x1_0000_0000
  const SHRT_MIN: int := -32768
  const SHRT_MAX: int := 32767

  /** True when x is representable as a C `unsigned int`. */
  predicate IsU32(x: int) {
    0 <= x < UINT32_MODULUS
  }

  /** True when x is representable as a C `int`. */
  predicate IsI32(x: int) {
    -0x8000_0000 <= x < 0x8000_0000
  }

  /** Conversion of any integer value to `unsigned int`: reduction modulo 2^32. */
  function U32(x: int): (r: int)
    ensures IsU32(r)
    ensures (r - x) % UINT32_MODULUS == 0
    ensures IsU32(x) ==> r == x
  {
    x % UINT32_MODULUS
  }

  function Abs(x: int): (r: nat)
    ensures r == x || r == -x
  {
    if x < 0 then -x else x
  }

  /**
   * C's `/` on signed operands with a positive divisor: the quotient is
   * truncated toward zero, so its magnitude is the floor of |a| / b and its
   * sign is that of a (unlike Dafny's Euclidean `/`).
   */
  function TruncDiv(a: int, b: int): (q: int)
    requires b > 0
    ensures Abs(q) == Abs(a) / b
    ensures q > 0 ==> a > 0
    ensures q < 0 ==> a < 0
  {
    if a >= 0 then a / b else -((-a) / b)
  }

  /** The saturation of a mixed sum to the signed 16-bit output range. */
  function Clamp16(x: int): (r: int)
    ensures SHRT_MIN <= r <= SHRT_MAX
    ensures SHRT_MIN <= x <= SHRT_MAX ==> r == x
    ensures x > SHRT_MAX ==> r == SHRT_MAX
    ensures x < SHRT_MIN ==> r == SHRT_MIN
  {
    if x > SHRT_MAX then SHRT_MAX
    else if x < SHRT_MIN then SHRT_MIN
    else x
  }
}

=== FILE: extensions.dfy ===
/**
 * The file-name test the frontend applies to directory entries and to the
 * chosen files (I_AddFileDir and the argv builder of I_MainMenu): find the
 * last '.' as `strrchr` does, then compare the three characters after it,
 * folded by C `tolower`, with "wad" or "deh".
 */
module Extensions {
  import opened Wrappers

  /** C `tolower` in the "C" locale: only 'A'..'Z' change. */
  function ToLower(ch: char): char {
    if 'A' <= ch <= 'Z' then (ch as int + 32) as char else ch
  }

  /** The character at i of a C string; just past its last character sits the terminating NUL. */
  function CharAt(s: string, i: nat): char {
    if i < |s| then s[i] else '\0'
  }

  /** `strrchr(s, '.')`: the position of the last '.', or NULL when there is none. */
  function LastDot(s: string): (r: Option<nat>)
    ensures r.Some? ==> r.value < |s| && s[r.value] == '.'
    ensures r.Some? ==> forall j :: r.value < j < |s| ==> s[j] != '.'
    ensures r.None? ==> forall j :: 0 <= j < |s| ==> s[j] != '.'
  {
    if |s| == 0 then
      None
    else if s[|s| - 1] == '.' then
      Some(|s| - 1)
    else
      LastDot(s[..|s| - 1])
  }

  /** A lower-case three-letter extension such as "wad". */
  predicate IsExtension(e: string) {
    |e| == 3 && forall k :: 0 <= k < 3 ==> 'a' <= e[k] <= 'z'
  }

  /**
   * The test of lines 212-214: there is a last '.', and the characters
   * after it, lower-cased, start with `e`. The C `&&` stops at the first
   * mismatch, so a NUL terminator ends the comparison before any read
   * past it.
   */
  predicate HasExtension(name: string, e: string)
    requires IsExtension(e)
  {
    match LastDot(name)
    case None => false
    case Some(d) =>
      && ToLower(CharAt(name, d + 1)) == e[0]
      && ToLower(CharAt(name, d + 2)) == e[1]
      && ToLower(CharAt(name, d + 3)) == e[2]
  }

  const WAD: string := "wad"
  const DEH: string := "deh"

  predicate IsWad(name: string) {
    HasExtension(name, WAD)
  }

  predicate IsDeh(name: string) {
    HasExtension(name, DEH)
  }

  /**
   * The same test stated without `strrchr`: some '.' with no '.' after
   * it is followed by at least three characters whose lower-case forms
   * spell `e`.
   */
  ghost predicate ExtensionAt(name: string, e: string, d: int)
    requires IsExtension(e)
  {
    && 0 <= d && d + 3 < |name|
    && name[d] == '.'
    && (forall j :: d < j < |name| ==> name[j] != '.')
    && ToLower(name[d + 1]) == e[0] && ToLower(name[d + 2]) == e[1] && ToLower(name[d + 3]) == e[2]
  }

  /** A letter of an extension is never what `tolower` makes of the NUL terminator. */
  lemma NulIsNoLetter(e: string, k: int)
    requires IsExtension(e) && 0 <= k < 3
    ensures ToLower('\0') != e[k]
  {
  }

  /** The C test accepts a name exactly when some last '.' is followed by the extension's letters in either case. */
  lemma HasExtensionMeaning(name: string, e: string)
    requires IsExtension(e)
    ensures HasExtension(name, e) <==> exists d :: ExtensionAt(name, e, d)
  {
    match LastDot(name)
    case None =>
      forall d ensures !ExtensionAt(name, e, d) {
        if 0 <= d < |name| {
          assert name[d] != '.';
        }
      }
    case Some(d) =>
      if HasExtension(name, e) {
        NulIsNoLetter(e, 0);
        NulIsNoLetter(e, 1);
        NulIsNoLetter(e, 2);
        assert d + 3 < |name|;
        assert ExtensionAt(name, e, d);
      }
      forall d' | ExtensionAt(name, e, d')
        ensures d' == d
      {
        assert name[d'] == '.' && name[d] == '.';
        assert forall j :: d < j < |name| ==> name[j] != '.';
        assert forall j :: d' < j < |name| ==> name[j] != '.';
      }
  }

  /** A name with no '.' is neither a WAD nor a DEH file. */
  lemma NoDotNoExtension(name: string)
    requires forall j :: 0 <= j < |name| ==> name[j] != '.'
    ensures !IsWad(name) && !IsDeh(name)
  {
  }

  /** A name is never both a WAD and a DEH file. */
  lemma WadNotDeh(name: string)
    ensures !(IsWad(name) && IsDeh(name))
  {
  }

  /**
   * Appending '.' and three characters that lower-case to the extension,
   * followed by any dot-free tail, yields a name with that extension: the
   * test reads only three characters, so ".wadx" passes as a WAD too.
   */
  lemma {:induction false} ExtensionSuffix(base: string, e: string, ext: string, tail: string)
    requires IsExtension(e)
    requires |ext| == 3 && forall k :: 0 <= k < 3 ==> ToLower(ext[k]) == e[k]
    requires forall j :: 0 <= j < |tail| ==> tail[j] != '.'
    ensures HasExtension(base + "." + ext + tail, e)
  {
    var name := base + "." + ext + tail;
    var d := |base|;
    assert name[d] == '.';
    forall j | d < j < |name|
      ensures name[j] != '.'
    {
      if j < d + 4 {
        assert name[j] == ext[j - d - 1];
        assert ToLower(name[j]) == e[j - d - 1];
      } else {
        assert name[j] == tail[j - d - 4];
      }
    }
    assert ExtensionAt(name, e, d);
    HasExtensionMeaning(name, e);
  }

  /**
   * Case does not matter and only three characters are compared: ".WAD"
   * and ".wadx" both name WAD files.
   */
  lemma WadVariants(base: string)
    ensures IsWad(base + ".WAD") && IsWad(base + ".wadx")
  {
    ExtensionSuffix(base, WAD, "WAD", "");
    assert base + "." + "WAD" + "" == base + ".WAD";
    ExtensionSuffix(base, WAD, "wad", "x");
    assert base + "." + "wad" + "x" == base + ".wadx";
  }

  /**
   * The listing of I_AddFileDir (lines 205-219): the directory entries
   * whose names pass the WAD or DEH test, in the order `readdir` gave them.
   */
  function DirFiles(entries: seq<string>): (r: seq<string>)
    ensures |r| <= |entries|
    ensures forall f :: f in r <==> f in entries && (IsWad(f) || IsDeh(f))
  {
    if |entries| == 0 then
      []
    else
      var rest := DirFiles(entries[1..]);
      assert forall f :: f in entries <==> f == entries[0] || f in entries[1..];
      if IsWad(entries[0]) || IsDeh(entries[0]) then [entries[0]] + rest else rest
  }

  /** Listing two directories one after the other lists the first directory's files, then the second's. */
  lemma {:induction false} DirFilesAppend(a: seq<string>, b: seq<string>)
    ensures DirFiles(a + b) == DirFiles(a) + DirFiles(b)
  {
    if |a| > 0 {
      assert (a + b)[1..] == a[1..] + b;
      DirFilesAppend(a[1..], b);
    } else {
      assert a + b == b;
    }
  }
}

=== FILE: file_browser.dfy ===
/**
 * The paged cursor of I_BrowseFiles over the list of files found on disk:
 * pages of PAGESIZE rows starting at `from`, the cursor row `pos` on the
 * page, and the keys that move, page and select.
 */
module FileBrowser {
  import opened Wrappers

  const PAGESIZE: int := 25

  /** `from` and `menupos` of I_BrowseFiles. */
  datatype Browser = Browser(from: int, pos: int)

  /** The browser opens on the first row of the first page. */
  const Start: Browser := Browser(0, 0)

  /** The index in `filelist` of the file under the cursor. */
  function Index(b: Browser): int {
    b.from + b.pos
  }

  /** The first index of a page: 0, PAGESIZE, 2 * PAGESIZE, ... */
  predicate PageStart(from: int)
    decreases if from < 0 then 0 else from
  {
    from == 0 || (from >= PAGESIZE && PageStart(from - PAGESIZE))
  }

  /** A page start is a non-negative multiple of PAGESIZE. */
  lemma {:induction false} PageStartMultiple(from: int)
    requires PageStart(from)
    ensures from >= 0 && from % PAGESIZE == 0
    decreases if from < 0 then 0 else from
  {
    if from != 0 {
      PageStartMultiple(from - PAGESIZE);
    }
  }

  /**
   * The cursor is on a row of a page, and on a file when there is one;
   * `count` is `filecount`.
   */
  predicate BrowserInv(b: Browser, count: int) {
    && 0 <= b.pos < PAGESIZE
    && PageStart(b.from)
    && (Index(b) < count || (b.from == 0 && b.pos == 0))
  }

  /** UP (lines 251-257): back one row, onto the last row of the previous page from the top of a page. */
  function Up(b: Browser): Browser {
    if b.from != 0 && b.pos == 0 then Browser(b.from - PAGESIZE, PAGESIZE - 1)
    else if b.pos > 0 then b.(pos := b.pos - 1)
    else b
  }

  /**
   * DOWN (lines 259-263): forward one row while a file follows, onto the
   * first row of the next page from the bottom of a page.
   */
  function Down(b: Browser, count: int): Browser {
    if Index(b) + 1 < count then
      if b.pos + 1 >= PAGESIZE then Browser(b.from + PAGESIZE, 0) else b.(pos := b.pos + 1)
    else
      b
  }

  /** L (lines 270-276): one page back, not before the first. */
  function PageUp(b: Browser): Browser {
    if b.from > 0 then b.(from := if b.from - PAGESIZE < 0 then 0 else b.from - PAGESIZE) else b
  }

  /**
   * R (lines 278-284): one page forward while that page starts on a
   * file, with the cursor pulled up onto the last file when its row is
   * past the end.
   */
  function PageDown(b: Browser, count: int): Browser {
    if b.from + PAGESIZE < count then
      var from := b.from + PAGESIZE;
      Browser(from, if from + b.pos >= count then count - from - 1 else b.pos)
    else
      b
  }

  /** The browser state is determined by the cursor's index: the page it falls on and the row within it. */
  lemma StateFromIndex(b: Browser, count: int)
    requires BrowserInv(b, count)
    ensures b == Browser(Index(b) / PAGESIZE * PAGESIZE, Index(b) % PAGESIZE)
  {
    PageStartMultiple(b.from);
    var k := b.from / PAGESIZE;
    assert b.from == k * PAGESIZE;
    assert Index(b) == k * PAGESIZE + b.pos;
  }

  /** UP keeps the shape. */
  lemma UpKeepsInv(b: Browser, count: int)
    requires BrowserInv(b, count)
    ensures BrowserInv(Up(b), count)
  {
    if b.from != 0 && b.pos == 0 {
      assert PageStart(b.from - PAGESIZE);
    }
  }

  /** UP moves the cursor's index back by one unless it is on the first file. */
  lemma UpMeaning(b: Browser, count: int)
    requires BrowserInv(b, count)
    ensures Index(Up(b)) == if Index(b) > 0 then Index(b) - 1 else 0
  {
  }

  /** DOWN keeps the shape. */
  lemma DownKeepsInv(b: Browser, count: int)
    requires BrowserInv(b, count)
    ensures BrowserInv(Down(b, count), count)
  {
    if Index(b) + 1 < count && b.pos + 1 >= PAGESIZE {
      assert PageStart(b.from + PAGESIZE);
    }
  }

  /** DOWN moves the cursor's index forward by one unless it is on the last file. */
  lemma DownMeaning(b: Browser, count: int)
    requires BrowserInv(b, count)
    ensures Index(Down(b, count)) == if Index(b) + 1 < count then Index(b) + 1 else Index(b)
  {
  }

  /** L keeps the shape. */
  lemma PageUpKeepsInv(b: Browser, count: int)
    requires BrowserInv(b, count)
    ensures BrowserInv(PageUp(b), count)
  {
    if b.from > 0 {
      assert b.from >= PAGESIZE && PageStart(b.from - PAGESIZE);
    }
  }

  /** L moves the cursor's index back by a page when it is past the first page. */
  lemma PageUpMeaning(b: Browser, count: int)
    requires BrowserInv(b, count)
    ensures Index(PageUp(b)) == if Index(b) >= PAGESIZE then Index(b) - PAGESIZE else Index(b)
  {
    if b.from > 0 {
      assert b.from >= PAGESIZE;
    }
  }

  /** R keeps the shape. */
  lemma PageDownKeepsInv(b: Browser, count: int)
    requires BrowserInv(b, count)
    ensures BrowserInv(PageDown(b, count), count)
  {
    if b.from + PAGESIZE < count {
      assert PageStart(b.from + PAGESIZE);
    }
  }

  /** When a next page exists, R moves the cursor's index forward by a page, stopping at the last file. */
  lemma PageDownMeaning(b: Browser, count: int)
    requires BrowserInv(b, count)
    ensures Index(PageDown(b, count)) ==
            if b.from + PAGESIZE < count then
              (if Index(b) + PAGESIZE < count then Index(b) + PAGESIZE else count - 1)
            else Index(b)
  {
  }

  /** UP undoes DOWN, wherever DOWN moved. */
  lemma DownThenUp(b: Browser, count: int)
    requires BrowserInv(b, count) && Index(b) + 1 < count
    ensures Up(Down(b, count)) == b
  {
    DownKeepsInv(b, count);
    DownMeaning(b, count);
    UpMeaning(Down(b, count), count);
    StateFromIndex(b, count);
    StateFromIndex(Up(Down(b, count)), count);
  }

  /** The keys I_BrowseFiles tests; any other key is BrowseOther. */
  datatype BrowseKeyName = BrowseUp | BrowseDown | BrowseA | BrowseL | BrowseR | BrowseB | BrowseOther

  /** What one key poll of I_BrowseFiles leads to. */
  datatype BrowseOutcome =
    | Browsing(b: Browser)     // poll again
    | Selected(index: int)     // A: `filelist[index]` goes into the list's slot
    | Cancelled                // B: back to the list with nothing chosen

  /** The read of `filelist` that A makes. */
  datatype BrowseFault = FilelistNull

  /**
   * A as written (line 266): it reads `filelist[from + menupos]`, and
   * with no file found `filelist` is still NULL.
   */
  function SelectAsWritten(b: Browser, files: seq<string>): Result<string, BrowseFault>
    requires BrowserInv(b, |files|)
  {
    if |files| == 0 then Failure(FilelistNull) else Success(files[Index(b)])
  }

  /** A with no file to select reads through the NULL `filelist`. */
  lemma SelectAsWrittenEmpty()
    ensures SelectAsWritten(Start, []) == Failure(FilelistNull)
  {
  }

  /** The key that decides a poll: the first of UP, DOWN, A, L, R, B that is down (lines 251-288). */
  function Decisive(down: set<BrowseKeyName>): BrowseKeyName {
    if BrowseUp in down then BrowseUp
    else if BrowseDown in down then BrowseDown
    else if BrowseA in down then BrowseA
    else if BrowseL in down then BrowseL
    else if BrowseR in down then BrowseR
    else if BrowseB in down then BrowseB
    else BrowseOther
  }

  /**
   * One pass of I_BrowseFiles' input handling for the key that decides
   * it. A selects the file under the cursor; with no file found it
   * selects nothing, as the corrected behaviour.
   */
  function BrowseKey(b: Browser, key: BrowseKeyName, files: seq<string>): BrowseOutcome
    requires BrowserInv(b, |files|)
  {
    match key
    case BrowseUp => Browsing(Up(b))
    case BrowseDown => Browsing(Down(b, |files|))
    case BrowseA => if |files| == 0 then Cancelled else Selected(Index(b))
    case BrowseL => Browsing(PageUp(b))
    case BrowseR => Browsing(PageDown(b, |files|))
    case BrowseB => Cancelled
    case BrowseOther => Browsing(b)
  }

  /** Every key that keeps the browser open keeps its shape. */
  lemma BrowseKeyKeepsInv(b: Browser, key: BrowseKeyName, files: seq<string>)
    requires BrowserInv(b, |files|)
    ensures BrowseKey(b, key, files).Browsing? ==> BrowserInv(BrowseKey(b, key, files).b, |files|)
  {
    match key
    case BrowseUp => UpKeepsInv(b, |files|);
    case BrowseDown => DownKeepsInv(b, |files|);
    case BrowseL => PageUpKeepsInv(b, |files|);
    case BrowseR => PageDownKeepsInv(b, |files|);
    case _ =>
  }

  /**
   * A selection is always the index of a listed file, the one the read
   * as written fetches; the browser closes without one only on B or when
   * no file was found.
   */
  lemma BrowseKeySelects(b: Browser, key: BrowseKeyName, files: seq<string>)
    requires BrowserInv(b, |files|)
    ensures BrowseKey(b, key, files).Selected? ==> 0 <= BrowseKey(b, key, files).index < |files|
    ensures BrowseKey(b, key, files).Selected? ==> SelectAsWritten(b, files) == Success(files[BrowseKey(b, key, files).index])
    ensures BrowseKey(b, key, files).Cancelled? ==> key == BrowseB || |files| == 0
  {
  }

  /** The decisive key is one that is down, and the first in the order the handler tests them. */
  lemma DecisiveIsFirst(down: set<BrowseKeyName>)
    ensures Decisive(down) != BrowseOther ==> Decisive(down) in down
    ensures Decisive(down) == BrowseOther <==> forall k :: k in down ==> k == BrowseOther
    ensures Decisive(down) == BrowseB ==> BrowseUp !in down && BrowseDown !in down && BrowseA !in down && BrowseL !in down && BrowseR !in down
  {
  }
}

=== FILE: launch_args.dfy ===
/**
 * What the frontend hands the engine: the IWADs it offers, and the
 * argument vector I_MainMenu assembles from the settings and the chosen
 * files once a "Start game" item is taken (lines 376-391 and 526-611).
 */
module LaunchArgs {
  import opened Wrappers
  import opened Extensions
  import opened MenuItems

  /** The command-line options the frontend passes. */
  const OPT_WIDTH: string := "-width"
  const OPT_HEIGHT: string := "-height"
  const OPT_VIDMODE: string := "-vidmode"
  const OPT_IWAD: string := "-iwad"
  const OPT_FILE: string := "-file"
  const OPT_DEH: string := "-deh"
  const OPT_COMPLEVEL: string := "-complevel"
  const OPT_WARP: string := "-warp"
  const OPT_SKILL: string := "-skill"
  const OPT_SOLO_NET: string := "-solo-net"
  const OPT_DEATHMATCH: string := "-deathmatch"
  const OPT_ALTDEATH: string := "-altdeath"
  const OPT_NOMONSTERS: string := "-nomonsters"
  const OPT_FAST: string := "-fast"
  const OPT_TURBO: string := "-turbo"

  /** The character of a decimal digit. */
  function DigitChar(d: int): char
    requires 0 <= d < 10
  {
    ('0' as int + d) as char
  }

  predicate IsDigit(ch: char) {
    '0' <= ch <= '9'
  }

  /** `sprintf("%d")` of a non-negative value: its decimal digits, with no leading zero. */
  function NatToString(n: nat): string
    decreases n
  {
    if n < 10 then [DigitChar(n)] else NatToString(n / 10) + [DigitChar(n % 10)]
  }

  /** `sprintf("%d")` (I_AddArgNum, lines 194-198): a '-' before the digits of a negative value. */
  function IntToString(n: int): string {
    if n < 0 then "-" + NatToString(-n) else NatToString(n)
  }

  /** The value of a string of decimal digits, read from the left. */
  function DigitsValue(s: string): int
    requires forall i :: 0 <= i < |s| ==> IsDigit(s[i])
  {
    if |s| == 0 then 0 else DigitsValue(s[..|s| - 1]) * 10 + (s[|s| - 1] as int - '0' as int)
  }

  /** A decimal numeral: digits, with an optional leading '-', and no leading zero unless it is "0". */
  function ParseInt(s: string): Option<int> {
    var neg := |s| > 0 && s[0] == '-';
    var digits := if neg then s[1..] else s;
    if |digits| == 0 || (|digits| > 1 && digits[0] == '0') || exists i :: 0 <= i < |digits| && !IsDigit(digits[i]) then
      None
    else if neg then
      if digits == "0" then None else Some(-DigitsValue(digits))
    else
      Some(DigitsValue(digits))
  }

  /** The digits of a natural number read back as that number, and start with a nonzero digit unless it is 0. */
  lemma {:induction false} NatToStringDigits(n: nat)
    ensures var s := NatToString(n);
            && |s| > 0
            && (forall i :: 0 <= i < |s| ==> IsDigit(s[i]))
            && DigitsValue(s) == n
            && (s[0] == '0' <==> n == 0)
    decreases n
  {
    if n >= 10 {
      NatToStringDigits(n / 10);
      var s := NatToString(n);
      assert s[..|s| - 1] == NatToString(n / 10);
    }
  }

  /** A number printed by `%d` reads back as itself. */
  lemma IntToStringRoundTrip(n: int)
    ensures ParseInt(IntToString(n)) == Some(n)
  {
    if n < 0 {
      NatToStringDigits(-n);
      assert IntToString(n)[1..] == NatToString(-n);
    } else {
      NatToStringDigits(n);
    }
  }

  /**
   * The IWAD search of lines 377-386: the names of `standard_iwads` that
   * I_FindFile locates, in table order. `present` stands for I_FindFile's
   * answer; `gameWadVals` has room for 15 names and its NULL terminator.
   */
  function FoundIwads(standard: seq<string>, present: set<string>): (r: seq<string>)
    requires |standard| < 16
    ensures |r| <= |standard|
    ensures forall f :: f in r <==> f in standard && f in present
  {
    if |standard| == 0 then
      []
    else
      var rest := FoundIwads(standard[1..], present);
      assert forall f :: f in standard <==> f == standard[0] || f in standard[1..];
      if standard[0] in present then [standard[0]] + rest else rest
  }

  /** What I_FindFile returns for a chosen file: its full path when it finds one, else the name as chosen. */
  function Resolve(found: map<string, string>, f: string): string {
    if f in found then found[f] else f
  }

  /** The arguments naming the chosen files with extension `e`, in selection order. */
  function FileArgs(files: seq<string>, e: string, found: map<string, string>): seq<string>
    requires IsExtension(e)
  {
    if |files| == 0 then []
    else FileArgs(files[..|files| - 1], e, found)
         + (if HasExtension(files[|files| - 1], e) then [Resolve(found, files[|files| - 1])] else [])
  }

  /** A flag followed by its arguments, left out altogether when there are none. */
  function Block(flag: string, args: seq<string>): seq<string> {
    if |args| == 0 then [] else [flag] + args
  }

  /** The list indices the head of argv reads are all in range. */
  predicate IndicesOk(s: Settings, iwads: seq<string>) {
    && 0 <= s.gameWad < |iwads|
    && 0 <= s.screenWidth < |ScreenWidthVals|
    && 0 <= s.screenHeight < |ScreenHeightVals|
    && 0 <= s.screenDepth < |ScreenDepthVals|
  }

  /** The menu settings always give in-range indices. */
  lemma SettingsGiveIndices(s: Settings, iwads: seq<string>)
    requires SettingsInv(s, iwads)
    ensures IndicesOk(s, iwads)
  {
    assert IsChoiceVar(GameWad) && IsChoiceVar(ScreenWidth) && IsChoiceVar(ScreenHeight);
    assert GetInt(s, GameWad) == s.gameWad;
    assert GetInt(s, ScreenWidth) == s.screenWidth;
    assert GetInt(s, ScreenHeight) == s.screenHeight;
  }

  /** The program name, then the video mode and IWAD pairs (lines 526-538). */
  function Head(package: string, s: Settings, iwads: seq<string>): seq<string>
    requires IndicesOk(s, iwads)
  {
    [package,
     OPT_WIDTH, ScreenWidthVals[s.screenWidth],
     OPT_HEIGHT, ScreenHeightVals[s.screenHeight],
     OPT_VIDMODE, ScreenDepthVals[s.screenDepth],
     OPT_IWAD, iwads[s.gameWad]]
  }

  /** `-complevel` with the level one below the menu index, unless "Default" is chosen (lines 580-583). */
  function CompArgs(s: Settings): seq<string> {
    if s.compLevel != 0 then [OPT_COMPLEVEL, IntToString(s.compLevel - 1)] else []
  }

  /** The multiplayer flag for the chosen game mode (lines 595-600). */
  function ModeArgs(mode: int): seq<string> {
    if mode == 1 then [OPT_SOLO_NET]
    else if mode == 2 then [OPT_DEATHMATCH]
    else if mode == 3 then [OPT_ALTDEATH]
    else []
  }

  /** `-nomonsters`, or else `-fast`, or neither (lines 602-605). */
  function MonsterArgs(s: Settings): seq<string> {
    if s.noMonsters then [OPT_NOMONSTERS] else if s.fastMonsters then [OPT_FAST] else []
  }

  /** The warp block when warping is on (lines 585-606): episode unless 0, map, one-based skill, mode, monsters. */
  function WarpArgs(s: Settings): seq<string> {
    if s.warpEnable then
      [OPT_WARP]
      + (if s.warpEpisode != 0 then [IntToString(s.warpEpisode)] else [])
      + [IntToString(s.warpMap)]
      + [OPT_SKILL, IntToString(s.warpSkill + 1)]
      + ModeArgs(s.gameMode)
      + MonsterArgs(s)
    else
      []
  }

  /** `-turbo` unless the speed is the normal 100 percent (lines 608-611). */
  function TurboArgs(s: Settings): seq<string> {
    if s.turbo != 100 then [OPT_TURBO, IntToString(s.turbo)] else []
  }

  /**
   * The whole argument vector of lines 526-611, block by block: the file
   * blocks are what `AddFiles` builds, and the rest are single
   * conditional appends.
   */
  function Argv(package: string, s: Settings, iwads: seq<string>, files: seq<string>, found: map<string, string>): seq<string>
    requires IndicesOk(s, iwads)
  {
    Head(package, s, iwads) + Options(s, files, found) + TurboArgs(s)
  }

  /** Everything between the head and `-turbo`: the file blocks, complevel and warp (lines 540-606). */
  function Options(s: Settings, files: seq<string>, found: map<string, string>): seq<string> {
    Block(OPT_FILE, FileArgs(files, WAD, found))
    + Block(OPT_DEH, FileArgs(files, DEH, found))
    + CompArgs(s) + WarpArgs(s)
  }

  /**
   * The two loops of lines 540-578 as written, one pass per file: a flag
   * before the first match, then the resolved name of every match.
   */
  method AddFiles(argv: seq<string>, files: seq<string>, e: string, flag: string, found: map<string, string>)
    returns (r: seq<string>)
    requires IsExtension(e)
    ensures r == argv + Block(flag, FileArgs(files, e, found))
  {
    r := argv;
    var added := false;
    var i := 0;
    while i < |files|
      invariant 0 <= i <= |files|
      invariant added <==> |FileArgs(files[..i], e, found)| > 0
      invariant r == argv + Block(flag, FileArgs(files[..i], e, found))
    {
      var matches := HasExtension(files[i], e);
      FileArgsStep(files, i, e, found);
      if matches {
        BlockExtend(argv, flag, FileArgs(files[..i], e, found), Resolve(found, files[i]));
        if !added {
          added := true;
          r := r + [flag];
        }
        r := r + [Resolve(found, files[i])];
      }
      i := i + 1;
    }
    assert files[..i] == files;
  }

  /** One more file extends the file arguments by its resolved name when it matches. */
  lemma FileArgsStep(files: seq<string>, i: int, e: string, found: map<string, string>)
    requires IsExtension(e) && 0 <= i < |files|
    ensures FileArgs(files[..i + 1], e, found)
            == FileArgs(files[..i], e, found) + (if HasExtension(files[i], e) then [Resolve(found, files[i])] else [])
  {
    assert files[..i + 1][..i] == files[..i];
  }

  /** Appending an argument to a block starts the block with its flag when it was empty. */
  lemma BlockExtend(argv: seq<string>, flag: string, args: seq<string>, x: string)
    ensures argv + Block(flag, args + [x]) == (if |args| == 0 then argv + [flag] else argv + Block(flag, args)) + [x]
  {
  }

  /**
   * The file arguments for `e` are exactly the resolved names of the
   * chosen files that pass the extension test, one per such file.
   */
  lemma {:induction false} FileArgsMeaning(files: seq<string>, e: string, found: map<string, string>)
    requires IsExtension(e)
    ensures |FileArgs(files, e, found)| <= |files|
    ensures forall a :: a in FileArgs(files, e, found) <==> exists f :: f in files && HasExtension(f, e) && a == Resolve(found, f)
  {
    if |files| > 0 {
      var init := files[..|files| - 1];
      var last := files[|files| - 1];
      FileArgsMeaning(init, e, found);
      assert forall f :: f in files <==> f in init || f == last;
    }
  }

  /** No chosen file is passed twice: the WAD and DEH arguments together number at most the chosen files. */
  lemma {:induction false} FilesPassedOnce(files: seq<string>, found: map<string, string>)
    ensures |FileArgs(files, WAD, found)| + |FileArgs(files, DEH, found)| <= |files|
  {
    if |files| > 0 {
      FilesPassedOnce(files[..|files| - 1], found);
      WadNotDeh(files[|files| - 1]);
    }
  }

  /**
   * The numbers on the command line read back as the engine expects them
   * when the settings are those the menu keeps: a complevel in 0..17, a
   * one-based skill in 1..5, and a turbo percentage in 10..400.
   */
  lemma NumbersReadBack(s: Settings, iwads: seq<string>)
    requires SettingsInv(s, iwads)
    ensures s.compLevel != 0 ==> CompArgs(s)[0] == OPT_COMPLEVEL && ParseInt(CompArgs(s)[1]) == Some(s.compLevel - 1) && 0 <= s.compLevel - 1 <= 17
    ensures s.warpEnable ==> var w := WarpArgs(s);
            var k := if s.warpEpisode != 0 then 3 else 2;
            w[k] == OPT_SKILL && ParseInt(w[k + 1]) == Some(s.warpSkill + 1) && 1 <= s.warpSkill + 1 <= 5
    ensures s.turbo != 100 ==> ParseInt(TurboArgs(s)[1]) == Some(s.turbo) && 10 <= s.turbo <= 400
  {
    assert IsChoiceVar(CompLevel) && GetInt(s, CompLevel) == s.compLevel;
    assert IsChoiceVar(WarpSkill) && GetInt(s, WarpSkill) == s.warpSkill;
    assert !IsChoiceVar(Turbo) && GetInt(s, Turbo) == s.turbo;
    IntToStringRoundTrip(s.compLevel - 1);
    IntToStringRoundTrip(s.warpSkill + 1);
    IntToStringRoundTrip(s.turbo);
  }

  /**
   * The front of argv is fixed: the program name, then `-width`,
   * `-height`, `-vidmode` and `-iwad` each followed by the chosen entry;
   * and `-turbo` with its value closes argv when turbo is not 100.
   */
  lemma ArgvFrame(package: string, s: Settings, iwads: seq<string>, files: seq<string>, found: map<string, string>)
    requires IndicesOk(s, iwads)
    ensures var a := Argv(package, s, iwads, files, found);
            && |a| >= 9 && a[0] == package
            && a[1] == OPT_WIDTH && a[2] == ScreenWidthVals[s.screenWidth]
            && a[3] == OPT_HEIGHT && a[4] == ScreenHeightVals[s.screenHeight]
            && a[5] == OPT_VIDMODE && a[6] == ScreenDepthVals[s.screenDepth]
            && a[7] == OPT_IWAD && a[8] == iwads[s.gameWad]
            && (s.turbo != 100 ==> |a| >= 11 && a[|a| - 2] == OPT_TURBO && ParseInt(a[|a| - 1]) == Some(s.turbo))
  {
    var head := Head(package, s, iwads);
    var front := head + Options(s, files, found);
    assert Argv(package, s, iwads, files, found) == front + TurboArgs(s);
    assert forall k :: 0 <= k < 9 ==> front[k] == head[k];
    IntToStringRoundTrip(s.turbo);
  }
}

=== FILE: menu_items.dfy ===
/**
 * The settings menu of I_MainMenu without its drawing: the two item
 * tables, the variables their items point at, and the key handling that
 * moves the cursor, adjusts a choice, integer or yes/no item, follows a
 * menu link or opens the PWAD list.
 */
module MenuItems {
  import opened Wrappers

  /** The keys the handlers test. `down` is the set pressed in one poll; any other key is KeyOther. */
  datatype Key = KeyUp | KeyDown | KeyLeft | KeyRight | KeyA | KeyB | KeyL | KeyR | KeyY | KeyOther

  /** The menu variables an item can point at through its `data` pointer. */
  datatype IntVar = GameWad | ScreenWidth | ScreenHeight | CompLevel | WarpEpisode | WarpMap | WarpSkill | GameMode | Turbo
  datatype BoolVar = WarpEnable | NoMonsters | FastMonsters

  /** The menu's global variables; `screenDepth` has no item (it is commented out) and stays 0. */
  datatype Settings = Settings(
    gameWad: int, screenWidth: int, screenHeight: int, screenDepth: int,
    compLevel: int, warpEnable: bool, warpEpisode: int, warpMap: int, warpSkill: int,
    gameMode: int, noMonsters: bool, fastMonsters: bool, turbo: int)

  /** The variables' initial values (lines 83-159). */
  const InitialSettings: Settings := Settings(0, 0, 0, 0, 0, false, 0, 1, 2, 0, false, false, 100)

  function GetInt(s: Settings, v: IntVar): int {
    match v
    case GameWad => s.gameWad
    case ScreenWidth => s.screenWidth
    case ScreenHeight => s.screenHeight
    case CompLevel => s.compLevel
    case WarpEpisode => s.warpEpisode
    case WarpMap => s.warpMap
    case WarpSkill => s.warpSkill
    case GameMode => s.gameMode
    case Turbo => s.turbo
  }

  /** Storing through an `int *`: only the addressed variable changes. */
  function SetInt(s: Settings, v: IntVar, x: int): (r: Settings)
    ensures GetInt(r, v) == x
    ensures forall w :: w != v ==> GetInt(r, w) == GetInt(s, w)
    ensures forall b :: GetBool(r, b) == GetBool(s, b)
    ensures r.screenDepth == s.screenDepth
  {
    match v
    case GameWad => s.(gameWad := x)
    case ScreenWidth => s.(screenWidth := x)
    case ScreenHeight => s.(screenHeight := x)
    case CompLevel => s.(compLevel := x)
    case WarpEpisode => s.(warpEpisode := x)
    case WarpMap => s.(warpMap := x)
    case WarpSkill => s.(warpSkill := x)
    case GameMode => s.(gameMode := x)
    case Turbo => s.(turbo := x)
  }

  function GetBool(s: Settings, v: BoolVar): bool {
    match v
    case WarpEnable => s.warpEnable
    case NoMonsters => s.noMonsters
    case FastMonsters => s.fastMonsters
  }

  /** Storing through a `boolean *`: only the addressed variable changes. */
  function SetBool(s: Settings, v: BoolVar, x: bool): (r: Settings)
    ensures GetBool(r, v) == x
    ensures forall w :: w != v ==> GetBool(r, w) == GetBool(s, w)
    ensures forall i :: GetInt(r, i) == GetInt(s, i)
    ensures r.screenDepth == s.screenDepth
  {
    match v
    case WarpEnable => s.(warpEnable := x)
    case NoMonsters => s.(noMonsters := x)
    case FastMonsters => s.(fastMonsters := x)
  }

  datatype MenuId = MainMenu | ExtraMenu

  /**
   * An item's type with what its `data`, `values`, `min`, `max` and `step`
   * fields hold. A choice's `values` lists the strings before the NULL
   * terminator of its C array. A menu link's target is None for the
   * "Start game" items, whose `data` is NULL.
   */
  datatype ItemKind =
    | ItemVoid
    | ItemChoice(cvar: IntVar, values: seq<string>)
    | ItemInt(ivar: IntVar, min: int, max: int, step: int)
    | ItemBool(bvar: BoolVar)
    | ItemFile
    | ItemMenu(target: Option<MenuId>)

  datatype MenuItem = MenuItem(y: int, kind: ItemKind)

  const ScreenWidthVals: seq<string> := ["320", "400"]
  const ScreenHeightVals: seq<string> := ["200", "240"]
  const ScreenDepthVals: seq<string> := ["8"]
  const CompLevelVals: seq<string> := [
    "Default", "Doom v1.2 (0)", "Doom v1.666 (1)", "Doom / Doom 2 v1.9 (2)", "Ultimate Doom (3)",
    "Final Doom (4)", "DOSDoom compatibility (5)", "TASDoom compatibility (6)",
    "\"Boom compatibility\" (7)", "Boom v2.01 (8)", "Boom v2.02 (9)", "LxDoom v1.3.2+ (10)",
    "MBF (11)", "PrBoom 2.03beta (12)", "PrBoom v2.1.0-2.1.1 (13)", "PrBoom v2.1.2-v2.2.6 (14)",
    "PrBoom v2.3.x (15)", "PrBoom 2.4.0 (16)", "Current PrBoom (17)"]
  const WarpSkillVals: seq<string> := ["ITYTD (1)", "HNTR (2)", "HMP (3)", "UV (4)", "Nightmare (5)"]
  const GameModeVals: seq<string> := ["Single player", "Solo coop", "Deathmatch", "Altdeath"]

  /**
   * The item tables `menuMain` and `menuExtra` (lines 98-172), without
   * their `{-1}` sentinels. `iwads` is what the IWAD search put in
   * `gameWadVals`.
   */
  function Items(m: MenuId, iwads: seq<string>): seq<MenuItem> {
    match m
    case MainMenu => [
      MenuItem(2, ItemMenu(None)),
      MenuItem(3, ItemMenu(Some(ExtraMenu))),
      MenuItem(5, ItemChoice(GameWad, iwads)),
      MenuItem(7, ItemChoice(ScreenWidth, ScreenWidthVals)),
      MenuItem(8, ItemChoice(ScreenHeight, ScreenHeightVals)),
      MenuItem(10, ItemFile)]
    case ExtraMenu => [
      MenuItem(2, ItemMenu(Some(MainMenu))),
      MenuItem(3, ItemMenu(None)),
      MenuItem(5, ItemChoice(CompLevel, CompLevelVals)),
      MenuItem(8, ItemBool(WarpEnable)),
      MenuItem(9, ItemInt(WarpEpisode, 0, 4, 1)),
      MenuItem(10, ItemInt(WarpMap, 1, 32, 1)),
      MenuItem(11, ItemChoice(WarpSkill, WarpSkillVals)),
      MenuItem(12, ItemVoid),
      MenuItem(13, ItemChoice(GameMode, GameModeVals)),
      MenuItem(14, ItemBool(NoMonsters)),
      MenuItem(15, ItemBool(FastMonsters)),
      MenuItem(17, ItemInt(Turbo, 10, 400, 10))]
  }

  /**
   * LEFT on a choice item (lines 477-481): back one entry when the index
   * is positive and the entry before it is not the terminator. Reading
   * `values[idx - 1]` and `values[idx + 1]` is only defined for an index
   * inside the list.
   */
  function ChoiceLeft(values: seq<string>, idx: int): int
    requires 0 <= idx < |values|
  {
    if idx > 0 && idx - 1 < |values| then idx - 1 else idx
  }

  /** RIGHT on a choice item (lines 492-496): forward one entry when the next entry is not the NULL terminator. */
  function ChoiceRight(values: seq<string>, idx: int): int
    requires 0 <= idx < |values|
  {
    if idx + 1 < |values| then idx + 1 else idx
  }

  /** Both choice moves keep the index on a string of the list, and each moves by one unless it is at that end. */
  lemma ChoiceMoves(values: seq<string>, idx: int)
    requires 0 <= idx < |values|
    ensures 0 <= ChoiceLeft(values, idx) < |values| && 0 <= ChoiceRight(values, idx) < |values|
    ensures ChoiceLeft(values, idx) == (if idx == 0 then 0 else idx - 1)
    ensures ChoiceRight(values, idx) == (if idx == |values| - 1 then idx else idx + 1)
  {
  }

  /** RIGHT undoes LEFT away from the first entry, and LEFT undoes RIGHT away from the last. */
  lemma ChoiceRoundTrip(values: seq<string>, idx: int)
    requires 0 <= idx < |values|
    ensures idx > 0 ==> ChoiceRight(values, ChoiceLeft(values, idx)) == idx
    ensures idx + 1 < |values| ==> ChoiceLeft(values, ChoiceRight(values, idx)) == idx
  {
  }

  /** LEFT on an integer item (lines 483-485): subtract `step` while the value is above `min`. */
  function IntLeft(min: int, step: int, v: int): int {
    if v > min then v - step else v
  }

  /** RIGHT on an integer item (lines 498-500): add `step` while the value is below `max`. */
  function IntRight(max: int, step: int, v: int): int {
    if v < max then v + step else v
  }

  /** A value on the grid min, min + step, ..., max. */
  ghost predicate OnGrid(min: int, max: int, step: int, v: int) {
    min <= v <= max && exists k: nat :: v == min + k * step
  }

  /** Multiplication by a positive step is strictly monotonic and distributes over k + 1. */
  lemma StepMultiples(k: int, n: int, step: int)
    requires step > 0
    ensures (k + 1) * step == k * step + step
    ensures k < n <==> k * step < n * step
  {
    if k < n {
      assert n * step - k * step == (n - k) * step;
    } else {
      assert k * step - n * step == (k - n) * step;
    }
  }

  /** When `max` itself is on the grid, both adjustments keep a grid value on the grid. */
  lemma IntStaysOnGrid(min: int, max: int, step: int, v: int)
    requires step > 0 && OnGrid(min, max, step, max)
    requires OnGrid(min, max, step, v)
    ensures OnGrid(min, max, step, IntLeft(min, step, v))
    ensures OnGrid(min, max, step, IntRight(max, step, v))
  {
    var k: nat :| v == min + k * step;
    var n: nat :| max == min + n * step;
    if v > min {
      StepMultiples(0, k, step);
      StepMultiples(k - 1, k, step);
      assert v - step == min + (k - 1) * step;
    }
    if v < max {
      StepMultiples(k, n, step);
      StepMultiples(k + 1, n, step);
      assert v + step == min + (k + 1) * step;
    }
  }

  /**
   * Without the grid condition the bound fails: a value between grid
   * points steps past `max`. Turbo at 395 goes to 405.
   */
  lemma IntOffGridOvershoots()
    ensures IntRight(400, 10, 395) == 405
  {
  }

  /** The cursor and the menu shown. */
  datatype MenuState = MenuState(current: MenuId, pos: int, settings: Settings)

  /** What one key poll of the main loop leads to. */
  datatype MenuOutcome =
    | Stay(st: MenuState)        // redraw and poll again
    | OpenList(st: MenuState)    // A on "Additional files...": I_ListFiles runs, then the loop resumes
    | StartGame(settings: Settings) // A on a "Start game" item: the loop ends and argv is built

  /** LEFT or RIGHT on the selected item (lines 474-503); items without a variable ignore it. */
  function AdjustItem(kind: ItemKind, s: Settings, right: bool): Settings
    requires kind.ItemChoice? ==> 0 <= GetInt(s, kind.cvar) < |kind.values|
  {
    match kind
    case ItemChoice(v, values) =>
      SetInt(s, v, if right then ChoiceRight(values, GetInt(s, v)) else ChoiceLeft(values, GetInt(s, v)))
    case ItemInt(v, min, max, step) =>
      SetInt(s, v, if right then IntRight(max, step, GetInt(s, v)) else IntLeft(min, step, GetInt(s, v)))
    case ItemBool(v) =>
      SetBool(s, v, right)
    case _ => s
  }

  /** The variables a choice item points at. */
  predicate IsChoiceVar(v: IntVar) {
    !(v.WarpEpisode? || v.WarpMap? || v.Turbo?)
  }

  /** The string list of each choice variable's item. */
  function ChoiceValues(v: IntVar, iwads: seq<string>): seq<string> {
    match v
    case GameWad => iwads
    case ScreenWidth => ScreenWidthVals
    case ScreenHeight => ScreenHeightVals
    case CompLevel => CompLevelVals
    case WarpSkill => WarpSkillVals
    case GameMode => GameModeVals
    case _ => []
  }

  /** The `min`, `max` and `step` of each integer variable's item. */
  function Grid(v: IntVar): (int, int, int) {
    match v
    case WarpEpisode => (0, 4, 1)
    case WarpMap => (1, 32, 1)
    case Turbo => (10, 400, 10)
    case _ => (0, 0, 1)
  }

  /** An item's fields agree with the variable it points at. */
  predicate KindFits(kind: ItemKind, iwads: seq<string>) {
    match kind
    case ItemChoice(v, values) => IsChoiceVar(v) && values == ChoiceValues(v, iwads)
    case ItemInt(v, min, max, step) => !IsChoiceVar(v) && (min, max, step) == Grid(v)
    case _ => true
  }

  /** Every item of both tables fits its variable. */
  lemma TablesFit(m: MenuId, i: int, iwads: seq<string>)
    requires 0 <= i < |Items(m, iwads)|
    ensures KindFits(Items(m, iwads)[i].kind, iwads)
  {
  }

  /**
   * Every choice variable names an entry of its list, every integer
   * variable lies on its grid, and `screenDepth` is 0. `iwads` lists the
   * IWADs found.
   */
  ghost predicate SettingsInv(s: Settings, iwads: seq<string>) {
    && s.screenDepth == 0
    && (forall v :: IsChoiceVar(v) ==> 0 <= GetInt(s, v) < |ChoiceValues(v, iwads)|)
    && (forall v :: !IsChoiceVar(v) ==> OnGrid(Grid(v).0, Grid(v).1, Grid(v).2, GetInt(s, v)))
  }

  /** The loop state is sound: the cursor is on an item of the current table and the settings keep their ranges. */
  ghost predicate MenuInv(st: MenuState, iwads: seq<string>) {
    && 0 <= st.pos < |Items(st.current, iwads)|
    && SettingsInv(st.settings, iwads)
  }

  /**
   * Whether the item's `data` pointer is non-NULL: the items with a
   * variable and the menu links to another table. The "Start game" links,
   * the blank row and "Additional files..." have none.
   */
  predicate HasData(kind: ItemKind) {
    kind.ItemChoice? || kind.ItemInt? || kind.ItemBool? || (kind.ItemMenu? && kind.target.Some?)
  }

  /**
   * One pass of the main loop's input handling (lines 471-523): the first
   * of UP, DOWN, LEFT, RIGHT, A, B found in `down` decides, except that
   * LEFT and RIGHT only count on an item with a `data` pointer. UP and
   * DOWN move the cursor within the table; LEFT and RIGHT adjust the
   * selected item; A toggles a yes/no item, follows a menu link (starting
   * the game when it is NULL) or opens the PWAD list; B returns to the
   * main table.
   */
  function MenuKey(st: MenuState, down: set<Key>, iwads: seq<string>): MenuOutcome
    requires MenuInv(st, iwads)
  {
    var items := Items(st.current, iwads);
    var selected := items[st.pos];
    if KeyUp in down then
      Stay(st.(pos := if st.pos > 0 then st.pos - 1 else st.pos))
    else if KeyDown in down then
      Stay(st.(pos := if st.pos + 1 < |items| then st.pos + 1 else st.pos))
    else if KeyLeft in down && HasData(selected.kind) then
      Stay(st.(settings := AdjustItem(selected.kind, st.settings, false)))
    else if KeyRight in down && HasData(selected.kind) then
      Stay(st.(settings := AdjustItem(selected.kind, st.settings, true)))
    else if KeyA in down then
      match selected.kind
      case ItemBool(v) => Stay(st.(settings := SetBool(st.settings, v, !GetBool(st.settings, v))))
      case ItemMenu(None) => StartGame(st.settings)
      case ItemMenu(Some(m)) => Stay(MenuState(m, 0, st.settings))
      case ItemFile => OpenList(st)
      case _ => Stay(st)
    else if KeyB in down then
      Stay(if st.current != MainMenu then MenuState(MainMenu, 0, st.settings) else st)
    else
      Stay(st)
  }

  /** The loop starts on the main table's first item with the initial settings. */
  lemma InitialMenuInv(iwads: seq<string>)
    requires |iwads| > 0
    ensures MenuInv(MenuState(MainMenu, 0, InitialSettings), iwads)
  {
    assert 0 == 0 + 0 * 1;
    assert 1 == 1 + 0 * 1;
    assert 100 == 10 + 9 * 10;
  }

  /** The largest value of each integer item lies on its grid. */
  lemma GridEnds()
    ensures OnGrid(0, 4, 1, 4) && OnGrid(1, 32, 1, 32) && OnGrid(10, 400, 10, 400)
  {
    assert 4 == 0 + 4 * 1;
    assert 32 == 1 + 31 * 1;
    assert 400 == 10 + 39 * 10;
  }

  /** Adjusting an item that fits its variable keeps the settings in range. */
  lemma AdjustKeepsSettings(kind: ItemKind, s: Settings, iwads: seq<string>, right: bool)
    requires KindFits(kind, iwads)
    requires SettingsInv(s, iwads)
    ensures SettingsInv(AdjustItem(kind, s, right), iwads)
  {
    match kind
    case ItemChoice(v, values) =>
      ChoiceMoves(values, GetInt(s, v));
    case ItemInt(v, min, max, step) =>
      GridEnds();
      IntStaysOnGrid(min, max, step, GetInt(s, v));
    case _ =>
  }

  /** Every key keeps the loop state sound, whatever else was pressed with it. */
  lemma MenuKeyKeepsInv(st: MenuState, down: set<Key>, iwads: seq<string>)
    requires MenuInv(st, iwads)
    ensures MenuKey(st, down, iwads).Stay? ==> MenuInv(MenuKey(st, down, iwads).st, iwads)
    ensures MenuKey(st, down, iwads).OpenList? ==> MenuKey(st, down, iwads).st == st
    ensures MenuKey(st, down, iwads).StartGame? ==> SettingsInv(MenuKey(st, down, iwads).settings, iwads)
  {
    TablesFit(st.current, st.pos, iwads);
    if KeyUp !in down && KeyDown !in down && (KeyLeft in down || KeyRight in down) {
      AdjustKeepsSettings(Items(st.current, iwads)[st.pos].kind, st.settings, iwads, KeyLeft !in down);
    }
  }

  /**
   * On an item without a `data` pointer LEFT and RIGHT are not handled:
   * the poll is decided as if they were not pressed, so LEFT with A on
   * "Start game" starts the game.
   */
  lemma NoDataIgnoresLeftRight(st: MenuState, down: set<Key>, iwads: seq<string>)
    requires MenuInv(st, iwads)
    requires !HasData(Items(st.current, iwads)[st.pos].kind)
    ensures MenuKey(st, down, iwads) == MenuKey(st, down - {KeyLeft, KeyRight}, iwads)
  {
  }

  /** B from the extra table returns to the main table's first item and leaves every setting as it was. */
  lemma BackToMain(st: MenuState, iwads: seq<string>)
    requires MenuInv(st, iwads) && st.current == ExtraMenu
    ensures MenuKey(st, {KeyB}, iwads) == Stay(MenuState(MainMenu, 0, st.settings))
  {
  }

  /** A on a yes/no item twice gives back the value it had. */
  lemma ToggleTwice(st: MenuState, iwads: seq<string>)
    requires MenuInv(st, iwads) && Items(st.current, iwads)[st.pos].kind.ItemBool?
    ensures var once := MenuKey(st, {KeyA}, iwads);
            once.Stay? && MenuInv(once.st, iwads) && MenuKey(once.st, {KeyA}, iwads) == Stay(st)
  {
    var v := Items(st.current, iwads)[st.pos].kind.bvar;
    var s1 := SetBool(st.settings, v, !GetBool(st.settings, v));
    var s2 := SetBool(s1, v, !GetBool(s1, v));
    assert s2 == st.settings;
  }
}

=== FILE: mixer.dfy ===
/**
 * The mixing callback I_UpdateSound: it fills the stereo ring buffer from
 * the last position it reached up to the position the hardware reports,
 * summing every active channel's gain-table contribution per frame,
 * advancing each channel's 16.16 cursor, retiring channels that reach
 * their end, and saturating the sums to 16 bits.
 */
module Mixer {
  import opened CInt
  import opened Wrappers
  import opened VolumeTable
  import opened ChannelPool

  /** Frames in the looping hardware buffer; each frame is a left and a right 16-bit sample. */
  const SAMPLECOUNT: int := 512
  /** The largest step for which adding it to a fraction below 1.0 cannot wrap 32 bits. */
  const MAX_EXACT_STEP: int := 0xFFFF_0000

  /** The callback's persistent state: the channel pool, `sample_start` and `sound_inited`. */
  datatype MixerState = MixerState(pool: Pool, sampleStart: int, inited: bool)

  /** What mixing produced: the pool afterwards and the left and right sums. */
  datatype Mixed = Mixed(pool: Pool, left: int, right: int)

  /** The read position of an active channel in 16.16 fixed point. */
  function Cursor(c: Channel): int
    requires c.Active()
  {
    c.data.value * FRAC_ONE + c.stepRemainder
  }

  /**
   * The cursor step of lines 417-421: the step is added to the fraction in
   * 32-bit unsigned arithmetic, the whole part moves the data pointer and
   * the fraction keeps the low 16 bits.
   */
  function Advance(c: Channel): (r: Channel)
    requires c.Active()
    requires IsU32(c.step) && 0 <= c.stepRemainder < FRAC_ONE
  {
    var rem := U32(c.stepRemainder + c.step);
    c.(data := Some(c.data.value + rem / FRAC_ONE), stepRemainder := rem % FRAC_ONE)
  }

  /**
   * What the cursor step means in 16.16 fixed point: the cursor moves by
   * the 32-bit sum of fraction and step, so by exactly `step` unless that
   * sum wraps; a step of 1.0 moves to the next byte and keeps the fraction.
   */
  lemma AdvanceCursor(c: Channel)
    requires c.Active()
    requires IsU32(c.step) && 0 <= c.stepRemainder < FRAC_ONE
    ensures Advance(c).Active() && 0 <= Advance(c).stepRemainder < FRAC_ONE
    ensures c.data.value <= Advance(c).data.value
    ensures Cursor(Advance(c)) == c.data.value * FRAC_ONE + U32(c.stepRemainder + c.step)
    ensures c.step <= MAX_EXACT_STEP ==> Cursor(Advance(c)) == Cursor(c) + c.step
    ensures c.step == FRAC_ONE ==>
              Advance(c).data.value == c.data.value + 1 && Advance(c).stepRemainder == c.stepRemainder
  {
    var rem := U32(c.stepRemainder + c.step);
    assert rem == rem / FRAC_ONE * FRAC_ONE + rem % FRAC_ONE;
    if c.step <= MAX_EXACT_STEP {
      assert c.stepRemainder + c.step < UINT32_MODULUS;
    }
  }

  /**
   * The cursor update of one active channel in one frame (lines 417-425):
   * the cursor advances, and once it has reached the end of the samples
   * the channel is stopped.
   */
  function StepChannel(c: Channel): (r: Channel)
    requires c.Active() && WellFormed(c)
    ensures WellFormed(r)
  {
    var a := Advance(c);
    if a.data.value >= a.endData then a.(data := None) else a
  }

  /** A step advances the cursor and keeps the channel exactly while the advanced cursor is before the end. */
  lemma StepChannelMeaning(c: Channel)
    requires c.Active() && WellFormed(c)
    ensures StepChannel(c).(data := Advance(c).data) == Advance(c)
    ensures StepChannel(c).Active() <==> Advance(c).data.value < c.endData
    ensures StepChannel(c).Active() ==> StepChannel(c).id == c.id
  {
  }

  /** A slot after a frame in which it is mixed: an empty slot stays as it is. */
  function Stepped(c: Channel): (r: Channel)
    requires WellFormed(c)
    ensures WellFormed(r)
  {
    if c.Active() then StepChannel(c) else c
  }

  /**
   * What one slot adds to a frame (lines 406-414): an active channel adds
   * the entries of its left and right gain rows for the byte under its
   * cursor; an empty slot adds nothing.
   */
  function Contribution(c: Channel, table: seq<int>): (int, int)
    requires WellFormed(c)
    requires |table| == TABLE_SIZE
  {
    if c.Active() then
      var b := c.lump[c.data.value];
      (Lookup(table, c.leftVol, b), Lookup(table, c.rightVol, b))
    else
      (0, 0)
  }

  /** With the table I_SetChannels builds, an active channel adds its gains' entries for the byte under its cursor. */
  lemma ContributionGains(c: Channel, table: seq<int>)
    requires WellFormed(c) && c.Active()
    requires IsVolumeTable(table)
    ensures Contribution(c, table) ==
              (VolEntry(c.leftVol, c.lump[c.data.value]), VolEntry(c.rightVol, c.lump[c.data.value]))
  {
    LookupEntry(table, c.leftVol, c.lump[c.data.value]);
    LookupEntry(table, c.rightVol, c.lump[c.data.value]);
  }

  /** One slot's contribution lies between the extremes of the gain table. */
  lemma ContributionBounds(c: Channel, table: seq<int>)
    requires WellFormed(c)
    requires IsVolumeTable(table)
    ensures MAX_NEGATIVE_ENTRY <= Contribution(c, table).0 <= MAX_POSITIVE_ENTRY
    ensures MAX_NEGATIVE_ENTRY <= Contribution(c, table).1 <= MAX_POSITIVE_ENTRY
  {
    if c.Active() {
      ContributionGains(c, table);
      VolBounds(c.leftVol, c.lump[c.data.value]);
      VolBounds(c.rightVol, c.lump[c.data.value]);
    }
  }

  /** The left and right sums of the contributions of slots 0..n-1. */
  function Sums(p: Pool, n: int, table: seq<int>): (int, int)
    requires Valid(p)
    requires 0 <= n <= MAX_CHANNELS
    requires |table| == TABLE_SIZE
  {
    if n == 0 then
      (0, 0)
    else
      var s := Sums(p, n - 1, table);
      var x := Contribution(p.chans[n - 1], table);
      (s.0 + x.0, s.1 + x.1)
  }

  /** True when a frame's step stops the channel in slot c: it was playing and reaches its end. */
  predicate Stops(c: Channel)
    requires WellFormed(c)
  {
    c.Active() && !StepChannel(c).Active()
  }

  /**
   * The slots once slots 0..n-1 have taken their step, one slot at a time
   * as the `chan` loop does it; slot j ends up stepped exactly when j < n.
   */
  function SteppedUpTo(p: Pool, n: int): (cs: seq<Channel>)
    requires Valid(p)
    requires 0 <= n <= MAX_CHANNELS
    ensures |cs| == MAX_CHANNELS
    ensures forall j :: 0 <= j < MAX_CHANNELS ==> cs[j] == if j < n then Stepped(p.chans[j]) else p.chans[j]
  {
    if n == 0 then p.chans else SteppedUpTo(p, n - 1)[n - 1 := Stepped(p.chans[n - 1])]
  }

  /**
   * The lock multiset once slots 0..n-1 have taken their step: stopchan
   * gives back one lock of each channel that stops, in slot order.
   */
  function FrameLocks(p: Pool, n: int): multiset<int>
    requires Valid(p)
    requires 0 <= n <= MAX_CHANNELS
  {
    if n == 0 then
      p.locked
    else if Stops(p.chans[n - 1]) then
      FrameLocks(p, n - 1) - multiset{p.chans[n - 1].id}
    else
      FrameLocks(p, n - 1)
  }

  /**
   * One frame of the `chan` loop (lines 398-427), stated slot by slot:
   * each of the slots 0..n-1 adds its contribution and takes its step,
   * the channels that stop give their locks back, and the slots from n
   * on are not touched.
   */
  function Frame(p: Pool, n: int, table: seq<int>): (m: Mixed)
    requires Valid(p)
    requires 0 <= n <= MAX_CHANNELS
    requires |table| == TABLE_SIZE
    ensures Valid(m.pool)
  {
    var s := Sums(p, n, table);
    Mixed(Pool(SteppedUpTo(p, n), FrameLocks(p, n)), s.0, s.1)
  }

  /**
   * The `chan` loop of I_UpdateSound (lines 398-427) for one frame, as
   * the code runs it: slot by slot in place, each active channel adding
   * its gain entries to the sums, advancing, and being stopped at its
   * end. It computes exactly the frame defined slot by slot.
   */
  method MixFrame(p: Pool, numChannels: int, table: seq<int>) returns (pool: Pool, dl: int, dr: int)
    requires Valid(p)
    requires 0 <= numChannels <= MAX_CHANNELS
    requires |table| == TABLE_SIZE
    ensures Mixed(pool, dl, dr) == Frame(p, numChannels, table)
  {
    var chans := p.chans;
    var locked := p.locked;
    dl, dr := 0, 0;
    var chan := 0;
    while chan < numChannels
      invariant 0 <= chan <= numChannels
      invariant chans == SteppedUpTo(p, chan)
      invariant locked == FrameLocks(p, chan)
      invariant (dl, dr) == Sums(p, chan, table)
    {
      var c := chans[chan];
      assert c == p.chans[chan];
      ghost var sums := Sums(p, chan + 1, table);
      assert sums == (dl + Contribution(c, table).0, dr + Contribution(c, table).1);
      if c.data.Some? {
        var b := c.lump[c.data.value];
        dl := dl + Lookup(table, c.leftVol, b);
        dr := dr + Lookup(table, c.rightVol, b);
        assert (dl, dr) == sums;
        var c' := StepChannel(c);
        if !c'.Active() {
          locked := locked - multiset{c.id};
        }
        chans := chans[chan := c'];
      } else {
        assert chans[chan := c] == chans;
        assert (dl, dr) == sums;
      }
      chan := chan + 1;
    }
    pool := Pool(chans, locked);
  }

  /** True when none of the first n slots is active. */
  predicate NoneActive(p: Pool, n: int)
    requires 0 <= n <= |p.chans|
  {
    forall j :: 0 <= j < n ==> !p.chans[j].Active()
  }

  /** A frame leaves the slots from n on alone, starts no slot, and only gives locks back. */
  lemma FrameKeeps(p: Pool, n: int, table: seq<int>)
    requires Valid(p)
    requires 0 <= n <= MAX_CHANNELS
    requires |table| == TABLE_SIZE
    ensures var m := Frame(p, n, table);
            && (forall j :: n <= j < MAX_CHANNELS ==> m.pool.chans[j] == p.chans[j])
            && (forall j :: 0 <= j < MAX_CHANNELS && !p.chans[j].Active() ==> m.pool.chans[j] == p.chans[j])
            && m.pool.locked <= p.locked
  {
    LocksOnlyReleased(p, n);
  }

  /** The steps only give locks back, never take new ones. */
  lemma {:induction false} LocksOnlyReleased(p: Pool, n: int)
    requires Valid(p)
    requires 0 <= n <= MAX_CHANNELS
    ensures FrameLocks(p, n) <= p.locked
  {
    if n > 0 {
      LocksOnlyReleased(p, n - 1);
    }
  }

  /** Each sum of a frame lies within n times the extremes of the gain table. */
  lemma {:induction false} FrameBounds(p: Pool, n: int, table: seq<int>)
    requires Valid(p)
    requires 0 <= n <= MAX_CHANNELS
    requires IsVolumeTable(table)
    ensures var s := Sums(p, n, table);
            && n * MAX_NEGATIVE_ENTRY <= s.0 <= n * MAX_POSITIVE_ENTRY
            && n * MAX_NEGATIVE_ENTRY <= s.1 <= n * MAX_POSITIVE_ENTRY
  {
    if n > 0 {
      FrameBounds(p, n - 1, table);
      ContributionBounds(p.chans[n - 1], table);
    }
  }

  /** With no active slot among the first n the sums are zero and no lock is given back. */
  lemma {:induction false} SilentSums(p: Pool, n: int, table: seq<int>)
    requires Valid(p)
    requires 0 <= n <= MAX_CHANNELS
    requires |table| == TABLE_SIZE
    requires NoneActive(p, n)
    ensures Sums(p, n, table) == (0, 0)
    ensures FrameLocks(p, n) == p.locked
  {
    if n > 0 {
      SilentSums(p, n - 1, table);
    }
  }

  /** With no active slot among the first n the frame is silent and changes nothing. */
  lemma FrameSilent(p: Pool, n: int, table: seq<int>)
    requires Valid(p)
    requires 0 <= n <= MAX_CHANNELS
    requires |table| == TABLE_SIZE
    requires NoneActive(p, n)
    ensures Frame(p, n, table) == Mixed(p, 0, 0)
  {
    SilentSums(p, n, table);
    assert SteppedUpTo(p, n) == p.chans;
  }

  /** Slot by slot, the steps keep the locks matched to the active slots: each channel that stops gives back its own lock. */
  lemma {:induction false} StepsBalanced(p: Pool, n: int)
    requires Valid(p) && Balanced(p)
    requires 0 <= n <= MAX_CHANNELS
    ensures Balanced(Pool(SteppedUpTo(p, n), FrameLocks(p, n)))
  {
    if n > 0 {
      StepsBalanced(p, n - 1);
      var q := Pool(SteppedUpTo(p, n - 1), FrameLocks(p, n - 1));
      var c := p.chans[n - 1];
      var c' := Stepped(c);
      assert q.chans[n - 1] == c;
      assert SteppedUpTo(p, n) == q.chans[n - 1 := c'];
      if Stops(c) {
        HeldIncluded(q.chans, n - 1);
        MultisetRestore(q.locked, Held(c), multiset{});
        assert q.locked + multiset{} == q.locked;
        SetSlotBalanced(q, n - 1, c', q.locked - multiset{c.id});
      } else {
        SetSlotBalanced(q, n - 1, c', q.locked);
      }
    }
  }

  /** A frame keeps the locks matched to the active slots: every channel it stops gives its lock back. */
  lemma FrameBalanced(p: Pool, n: int, table: seq<int>)
    requires Valid(p) && Balanced(p)
    requires 0 <= n <= MAX_CHANNELS
    requires |table| == TABLE_SIZE
    ensures Balanced(Frame(p, n, table).pool)
  {
    StepsBalanced(p, n);
  }
  /** The pool after k frames of n channels each. */
  function PoolAfter(p: Pool, k: nat, n: int, table: seq<int>): (r: Pool)
    requires Valid(p)
    requires 0 <= n <= MAX_CHANNELS
    requires |table| == TABLE_SIZE
    ensures Valid(r)
  {
    if k == 0 then p else Frame(PoolAfter(p, k - 1, n, table), n, table).pool
  }

  /** Any number of frames keeps the locks matched to the active slots. */
  lemma {:induction false} PoolAfterBalanced(p: Pool, k: nat, n: int, table: seq<int>)
    requires Valid(p) && Balanced(p)
    requires 0 <= n <= MAX_CHANNELS
    requires |table| == TABLE_SIZE
    ensures Balanced(PoolAfter(p, k, n, table))
  {
    if k > 0 {
      PoolAfterBalanced(p, k - 1, n, table);
      FrameBalanced(PoolAfter(p, k - 1, n, table), n, table);
    }
  }

  /** Frame number k (counting from 0) of a callback that started from pool p. */
  function FrameAt(p: Pool, k: nat, n: int, table: seq<int>): Mixed
    requires Valid(p)
    requires 0 <= n <= MAX_CHANNELS
    requires |table| == TABLE_SIZE
  {
    Frame(PoolAfter(p, k, n, table), n, table)
  }

  /** With no active channel every frame is silent and the pool never changes. */
  lemma {:induction false} SilentFrames(p: Pool, k: nat, n: int, table: seq<int>)
    requires Valid(p)
    requires 0 <= n <= MAX_CHANNELS
    requires |table| == TABLE_SIZE
    requires NoneActive(p, n)
    ensures PoolAfter(p, k, n, table) == p
    ensures FrameAt(p, k, n, table) == Mixed(p, 0, 0)
  {
    FrameSilent(p, n, table);
    if k > 0 {
      SilentFrames(p, k - 1, n, table);
    }
  }

  /** The ring index reached k frames after `start`. */
  function Slot(start: int, k: int): int {
    (start + k) % SAMPLECOUNT
  }

  /** How many frames lie from `from` up to (not including) `to` going round the ring. */
  function RingDistance(from: int, to: int): int {
    (to - from) % SAMPLECOUNT
  }

  function LeftIndex(f: int): int {
    2 * f
  }

  function RightIndex(f: int): int {
    2 * f + 1
  }

  /** One more frame moves the slot one place round the ring. */
  lemma SlotNext(start: int, k: int)
    requires 0 <= start < SAMPLECOUNT && 0 <= k < SAMPLECOUNT
    ensures Slot(start, k + 1) == (Slot(start, k) + 1) % SAMPLECOUNT
  {
    if start + k + 1 < SAMPLECOUNT {
      assert Slot(start, k) == start + k;
    } else if start + k + 1 == SAMPLECOUNT {
      assert Slot(start, k) == start + k;
      assert Slot(start, k + 1) == 0;
    } else {
      assert Slot(start, k) == start + k - SAMPLECOUNT;
      assert Slot(start, k + 1) == start + k + 1 - SAMPLECOUNT;
    }
  }

  /** Walking k < SAMPLECOUNT frames from `start` and measuring back gives k; measuring then walking gives the frame. */
  lemma RingRoundTrip(start: int, k: int, f: int)
    requires 0 <= start < SAMPLECOUNT
    requires 0 <= k < SAMPLECOUNT
    requires 0 <= f < SAMPLECOUNT
    ensures 0 <= Slot(start, k) < SAMPLECOUNT
    ensures RingDistance(start, Slot(start, k)) == k
    ensures Slot(start, RingDistance(start, f)) == f
    ensures 0 <= RingDistance(start, f) < SAMPLECOUNT
  {
    if start + k >= SAMPLECOUNT {
      assert Slot(start, k) == start + k - SAMPLECOUNT;
    } else {
      assert Slot(start, k) == start + k;
    }
    if f >= start {
      assert RingDistance(start, f) == f - start;
    } else {
      assert RingDistance(start, f) == f - start + SAMPLECOUNT;
    }
  }

  /** The frames at ring distance 0..k-1 from `start` hold the values `written` lists, in order. */
  ghost predicate WrittenUpTo(out: seq<int>, start: int, k: int, written: seq<(int, int)>)
    requires |out| == 2 * SAMPLECOUNT
    requires 0 <= k <= |written|
  {
    forall j :: 0 <= j < k ==>
      && 0 <= Slot(start, j) < SAMPLECOUNT
      && out[LeftIndex(Slot(start, j))] == written[j].0
      && out[RightIndex(Slot(start, j))] == written[j].1
  }

  /** Every frame at ring distance k or more from `start` still holds its old samples. */
  ghost predicate UntouchedFrom(out: seq<int>, stream: seq<int>, start: int, k: int)
    requires |out| == |stream| == 2 * SAMPLECOUNT
  {
    forall f :: 0 <= f < SAMPLECOUNT && RingDistance(start, f) >= k ==>
      out[LeftIndex(f)] == stream[LeftIndex(f)] && out[RightIndex(f)] == stream[RightIndex(f)]
  }

  /** Writing frame k at its ring slot extends the written prefix and shrinks the untouched part. */
  lemma WriteFrame(out: seq<int>, stream: seq<int>, start: int, k: int, written: seq<(int, int)>)
    requires 0 <= start < SAMPLECOUNT
    requires 0 <= k < SAMPLECOUNT
    requires |written| == k + 1
    requires |out| == |stream| == 2 * SAMPLECOUNT
    requires WrittenUpTo(out, start, k, written)
    requires UntouchedFrom(out, stream, start, k)
    ensures var f := Slot(start, k);
            var out' := out[LeftIndex(f) := written[k].0][RightIndex(f) := written[k].1];
            && 0 <= f < SAMPLECOUNT
            && WrittenUpTo(out', start, k + 1, written)
            && UntouchedFrom(out', stream, start, k + 1)
  {
    var f := Slot(start, k);
    RingRoundTrip(start, k, 0);
    var out' := out[LeftIndex(f) := written[k].0][RightIndex(f) := written[k].1];
    forall j | 0 <= j < k + 1
      ensures 0 <= Slot(start, j) < SAMPLECOUNT
      ensures out'[LeftIndex(Slot(start, j))] == written[j].0
      ensures out'[RightIndex(Slot(start, j))] == written[j].1
    {
      RingRoundTrip(start, j, 0);
      if j < k {
        assert Slot(start, j) != f;
      }
    }
    forall g | 0 <= g < SAMPLECOUNT && RingDistance(start, g) >= k + 1
      ensures out'[LeftIndex(g)] == stream[LeftIndex(g)] && out'[RightIndex(g)] == stream[RightIndex(g)]
    {
      assert g != f;
    }
  }

  /** The saturated left and right samples of frame k. */
  function FrameOut(p: Pool, k: nat, n: int, table: seq<int>): (int, int)
    requires Valid(p)
    requires 0 <= n <= MAX_CHANNELS
    requires |table| == TABLE_SIZE
  {
    var m := FrameAt(p, k, n, table);
    (Clamp16(m.left), Clamp16(m.right))
  }

  /** The saturated samples of frames 0..k-1, in order. */
  function Frames(p: Pool, k: nat, n: int, table: seq<int>): (fs: seq<(int, int)>)
    requires Valid(p)
    requires 0 <= n <= MAX_CHANNELS
    requires |table| == TABLE_SIZE
    ensures |fs| == k
  {
    if k == 0 then [] else Frames(p, k - 1, n, table) + [FrameOut(p, k - 1, n, table)]
  }

  lemma {:induction false} FramesIndex(p: Pool, k: nat, n: int, table: seq<int>, j: int)
    requires Valid(p)
    requires 0 <= n <= MAX_CHANNELS
    requires |table| == TABLE_SIZE
    requires 0 <= j < k
    ensures Frames(p, k, n, table)[j] == FrameOut(p, j, n, table)
  {
    var fs := Frames(p, k - 1, n, table);
    var x := FrameOut(p, k - 1, n, table);
    assert Frames(p, k, n, table) == fs + [x];
    if j < k - 1 {
      FramesIndex(p, k - 1, n, table, j);
      assert (fs + [x])[j] == fs[j];
    } else {
      assert (fs + [x])[j] == x;
    }
  }

  /**
   * The state of the frame loop after k frames from `start`: the pool is
   * the pool after k frames, the k frames written so far sit at their ring
   * slots, and the rest of the buffer is as it was.
   */
  ghost predicate FillInv(p: Pool, start: int, k: int, pool: Pool, out: seq<int>, stream: seq<int>,
                          numChannels: int, table: seq<int>)
  {
    && Valid(p) && 0 <= numChannels <= MAX_CHANNELS && |table| == TABLE_SIZE
    && 0 <= start < SAMPLECOUNT && 0 <= k <= SAMPLECOUNT
    && |out| == |stream| == 2 * SAMPLECOUNT
    && pool == PoolAfter(p, k, numChannels, table)
    && WrittenUpTo(out, start, k, Frames(p, k, numChannels, table))
    && UntouchedFrom(out, stream, start, k)
  }

  /** One turn of the frame loop: mixing frame k and writing it at slot k keeps the loop state. */
  lemma FillStep(p: Pool, start: int, k: int, pool: Pool, out: seq<int>, stream: seq<int>,
                 numChannels: int, table: seq<int>, m: Mixed)
    requires FillInv(p, start, k, pool, out, stream, numChannels, table)
    requires k < SAMPLECOUNT
    requires m == Frame(pool, numChannels, table)
    ensures 0 <= Slot(start, k) < SAMPLECOUNT
    ensures FillInv(p, start, k + 1, m.pool,
                    out[LeftIndex(Slot(start, k)) := Clamp16(m.left)][RightIndex(Slot(start, k)) := Clamp16(m.right)],
                    stream, numChannels, table)
  {
    var written := Frames(p, k + 1, numChannels, table);
    assert written == Frames(p, k, numChannels, table) + [(Clamp16(m.left), Clamp16(m.right))];
    WriteFrame(out, stream, start, k, written);
  }

  /**
   * One turn of the frame loop (lines 386-447): mix frame k from the
   * current pool and store its saturated left and right sums at ring
   * slot `sampleStart`, which is k frames after `start`.
   */
  method WriteFrameAt(p: Pool, start: int, ghost k: int, sampleStart: int, pool: Pool, out: seq<int>,
                      stream: seq<int>, numChannels: int, table: seq<int>)
    returns (pool': Pool, out': seq<int>)
    requires FillInv(p, start, k, pool, out, stream, numChannels, table)
    requires k < SAMPLECOUNT
    requires sampleStart == Slot(start, k)
    ensures FillInv(p, start, k + 1, pool', out', stream, numChannels, table)
  {
    var dl, dr;
    pool', dl, dr := MixFrame(pool, numChannels, table);
    FillStep(p, start, k, pool, out, stream, numChannels, table, Mixed(pool', dl, dr));
    out' := out[LeftIndex(sampleStart) := Clamp16(dl)][RightIndex(sampleStart) := Clamp16(dr)];
  }

  /**
   * The frame loop of I_UpdateSound (lines 392-448): from `start`, mix
   * and write one frame per ring slot until the hardware position is
   * reached. The frames written are exactly `Frames`, at consecutive ring
   * slots, and nothing else in the buffer changes.
   */
  method FillRing(p: Pool, start: int, hwPos: int, numChannels: int, table: seq<int>, stream: seq<int>)
    returns (pool: Pool, sampleStart: int, out: seq<int>)
    requires Valid(p)
    requires 0 <= start < SAMPLECOUNT
    requires 0 <= hwPos < SAMPLECOUNT
    requires 0 <= numChannels <= MAX_CHANNELS
    requires |table| == TABLE_SIZE
    requires |stream| == 2 * SAMPLECOUNT
    ensures 0 <= RingDistance(start, hwPos) < SAMPLECOUNT
    ensures sampleStart == hwPos
    ensures FillInv(p, start, RingDistance(start, hwPos), pool, out, stream, numChannels, table)
  {
    var n := RingDistance(start, hwPos);
    RingRoundTrip(start, 0, hwPos);
    sampleStart := start;
    pool := p;
    out := stream;
    ghost var k := 0;
    assert WrittenUpTo(out, start, 0, Frames(p, 0, numChannels, table));
    while sampleStart != hwPos
      invariant 0 <= k <= n
      invariant sampleStart == Slot(start, k)
      invariant FillInv(p, start, k, pool, out, stream, numChannels, table)
      decreases n - k
    {
      assert k < n;
      RingRoundTrip(start, k, hwPos);
      pool, out := WriteFrameAt(p, start, k, sampleStart, pool, out, stream, numChannels, table);
      SlotNext(start, k);
      sampleStart := (sampleStart + 1) % SAMPLECOUNT;
      k := k + 1;
    }
    if k < n {
      RingRoundTrip(start, k, hwPos);
    }
  }

  /** The frames a ring fill wrote, read back at their slots, are the saturated frame sums. */
  lemma FramesAtSlots(out: seq<int>, p: Pool, start: int, n: int, numChannels: int, table: seq<int>)
    requires Valid(p)
    requires 0 <= numChannels <= MAX_CHANNELS
    requires |table| == TABLE_SIZE
    requires 0 <= n
    requires |out| == 2 * SAMPLECOUNT
    requires WrittenUpTo(out, start, n, Frames(p, n, numChannels, table))
    ensures forall k :: 0 <= k < n ==>
              && 0 <= Slot(start, k) < SAMPLECOUNT
              && out[LeftIndex(Slot(start, k))] == FrameOut(p, k, numChannels, table).0
              && out[RightIndex(Slot(start, k))] == FrameOut(p, k, numChannels, table).1
  {
    forall j | 0 <= j < n
      ensures out[LeftIndex(Slot(start, j))] == FrameOut(p, j, numChannels, table).0
      ensures out[RightIndex(Slot(start, j))] == FrameOut(p, j, numChannels, table).1
    {
      FramesIndex(p, n, numChannels, table, j);
    }
  }

  /** With no active channel every frame's saturated output is silence. */
  lemma SilentOut(p: Pool, n: nat, numChannels: int, table: seq<int>)
    requires Valid(p)
    requires 0 <= numChannels <= MAX_CHANNELS
    requires |table| == TABLE_SIZE
    requires NoneActive(p, numChannels)
    ensures PoolAfter(p, n, numChannels, table) == p
    ensures forall k :: 0 <= k < n ==> FrameOut(p, k, numChannels, table) == (0, 0)
  {
    SilentFrames(p, n, numChannels, table);
    forall j | 0 <= j < n
      ensures FrameOut(p, j, numChannels, table) == (0, 0)
    {
      SilentFrames(p, j, numChannels, table);
    }
  }

  /**
   * I_UpdateSound. Does nothing unless sound is initialised. Otherwise,
   * with n the ring distance from `sample_start` to the hardware position
   * `hwPos`, it writes exactly the n frames from `sample_start` on (left
   * sample at 2f, right at 2f+1, f wrapping modulo SAMPLECOUNT), each the
   * saturated sum of that frame's channel contributions, leaves every
   * other frame alone, and ends with `sample_start == hwPos`. With no
   * active channel it writes silence and leaves the pool as it was.
   * `numChannels` is the engine's channel count; slots from it on are not
   * mixed.
   */
  method UpdateSound(st: MixerState, hwPos: int, numChannels: int, table: seq<int>, stream: seq<int>)
    returns (st': MixerState, out: seq<int>)
    requires Valid(st.pool)
    requires 0 <= st.sampleStart < SAMPLECOUNT
    requires 0 <= hwPos < SAMPLECOUNT
    requires 0 <= numChannels <= MAX_CHANNELS
    requires |table| == TABLE_SIZE
    requires |stream| == 2 * SAMPLECOUNT
    ensures !st.inited ==> st' == st && out == stream
    ensures st.inited ==>
              var start := st.sampleStart;
              var n := RingDistance(start, hwPos);
              && st' == MixerState(PoolAfter(st.pool, n, numChannels, table), hwPos, true)
              && Valid(st'.pool)
              && |out| == 2 * SAMPLECOUNT
              && (forall k :: 0 <= k < n ==>
                    && out[LeftIndex(Slot(start, k))] == FrameOut(st.pool, k, numChannels, table).0
                    && out[RightIndex(Slot(start, k))] == FrameOut(st.pool, k, numChannels, table).1)
              && (forall f :: 0 <= f < SAMPLECOUNT && RingDistance(start, f) >= n ==>
                    out[LeftIndex(f)] == stream[LeftIndex(f)] && out[RightIndex(f)] == stream[RightIndex(f)])
    ensures st.inited && NoneActive(st.pool, numChannels) ==>
              && st'.pool == st.pool
              && forall k :: 0 <= k < RingDistance(st.sampleStart, hwPos) ==>
                   out[LeftIndex(Slot(st.sampleStart, k))] == 0 && out[RightIndex(Slot(st.sampleStart, k))] == 0
    ensures st.inited && Balanced(st.pool) ==> Balanced(st'.pool)
  {
    if !st.inited {
      return st, stream;
    }
    var pool, sampleStart;
    pool, sampleStart, out := FillRing(st.pool, st.sampleStart, hwPos, numChannels, table, stream);
    st' := MixerState(pool, sampleStart, true);
    var n := RingDistance(st.sampleStart, hwPos);
    FramesAtSlots(out, st.pool, st.sampleStart, n, numChannels, table);
    if NoneActive(st.pool, numChannels) {
      SilentOut(st.pool, n, numChannels, table);
    }
    if Balanced(st.pool) {
      PoolAfterBalanced(st.pool, n, numChannels, table);
    }
  }
}

=== FILE: pwad_list.dfy ===
/**
 * The list of additional files of I_ListFiles: the `addfiles` array of
 * MAX_PWADS slots, the count of slots in use, and the cursor, with the
 * edits its keys make (move a file up or down, remove it, fill a slot
 * from the file browser).
 */
module PwadList {
  import opened Wrappers

  const MAX_PWADS: int := 20

  /** `addfiles` (None for a NULL pointer), `addfilescount` and the list's `menupos`. */
  datatype ListState = ListState(slots: seq<Option<string>>, count: int, pos: int)

  /** The number of rows the cursor can reach: the files and the "(add new...)" row, at most MAX_PWADS. */
  function Rows(count: int): int {
    if 1 + count < MAX_PWADS then 1 + count else MAX_PWADS
  }

  /**
   * The shape every key keeps: MAX_PWADS slots, the first `count` of
   * them holding a file and the rest NULL, and the cursor on a row.
   */
  predicate ListInv(l: ListState) {
    && |l.slots| == MAX_PWADS
    && 0 <= l.count <= MAX_PWADS
    && (forall i :: 0 <= i < MAX_PWADS ==> (l.slots[i].Some? <==> i < l.count))
    && 0 <= l.pos < Rows(l.count)
  }

  /** The list is empty and the cursor on its first row when the frontend starts. */
  function EmptyList(): (l: ListState)
    ensures ListInv(l) && l.count == 0
  {
    ListState(seq(MAX_PWADS, _ => None), 0, 0)
  }

  /** The selected files in list order, as the argv builder walks them. */
  function Files(l: ListState): (r: seq<string>)
    requires ListInv(l)
    ensures |r| == l.count
  {
    seq(l.count, i requires 0 <= i < l.count && ListInv(l) => l.slots[i].value)
  }

  /** UP (line 327): the cursor moves up one row unless it is on the first. */
  function CursorUp(l: ListState): ListState {
    if l.pos > 0 then l.(pos := l.pos - 1) else l
  }

  /** DOWN (line 330): the cursor moves down one row unless it is on the last reachable one. */
  function CursorDown(l: ListState): ListState {
    if l.pos + 1 < Rows(l.count) then l.(pos := l.pos + 1) else l
  }

  /** Exchange two slots. */
  function Swap(s: seq<Option<string>>, i: int, j: int): seq<Option<string>>
    requires 0 <= i < |s| && 0 <= j < |s|
  {
    s[i := s[j]][j := s[i]]
  }

  /** L (lines 335-342): the file under the cursor trades places with the one above it, and the cursor follows it. */
  function MoveUp(l: ListState): ListState
    requires ListInv(l)
  {
    if 0 < l.pos < l.count then ListState(Swap(l.slots, l.pos - 1, l.pos), l.count, l.pos - 1) else l
  }

  /** R (lines 344-351): the file under the cursor trades places with the one below it, and the cursor follows it. */
  function MoveDown(l: ListState): ListState
    requires ListInv(l)
  {
    if l.pos + 1 < l.count then ListState(Swap(l.slots, l.pos, l.pos + 1), l.count, l.pos + 1) else l
  }

  /**
   * The evidently intended Y (lines 353-360): on a file row, the files
   * after the cursor close up by one and the freed last slot becomes
   * NULL; on the "(add new...)" row nothing changes.
   */
  function Remove(l: ListState): ListState
    requires ListInv(l)
  {
    if l.pos < l.count then
      ListState(l.slots[..l.pos] + l.slots[l.pos + 1..] + [None], l.count - 1, l.pos)
    else
      l
  }

  /**
   * A in the browser for row `num` (lines 266-267): the chosen file goes
   * into slot `num`, and the count grows when that slot was the first
   * free one.
   */
  function SetFile(l: ListState, num: int, f: string): ListState
    requires 0 <= num < |l.slots|
  {
    ListState(l.slots[num := Some(f)], if num == l.count then l.count + 1 else l.count, l.pos)
  }

  /** What one key poll of I_ListFiles leads to. */
  datatype ListOutcome =
    | Listing(l: ListState)   // poll again
    | Closed(l: ListState)    // B: back to the main menu

  /**
   * One pass of I_ListFiles' input handling (lines 326-364): the first of
   * UP, DOWN, A, L, R, Y, B in `down` decides. A runs the browser for the
   * cursor's row; `chosen` is the file it returned, None when it was left
   * with B. Y removes as `Remove` intends.
   */
  function ListKey(l: ListState, down: set<ListKeyName>, chosen: Option<string>): ListOutcome
    requires ListInv(l)
  {
    if ListUp in down then Listing(CursorUp(l))
    else if ListDown in down then Listing(CursorDown(l))
    else if ListA in down then
      Listing(if chosen.Some? then SetFile(l, l.pos, chosen.value) else l)
    else if ListL in down then Listing(MoveUp(l))
    else if ListR in down then Listing(MoveDown(l))
    else if ListY in down then Listing(Remove(l))
    else if ListB in down then Closed(l)
    else Listing(l)
  }

  /** The keys I_ListFiles tests; any other key is ListOther. */
  datatype ListKeyName = ListUp | ListDown | ListA | ListL | ListR | ListY | ListB | ListOther

  /** The cursor moves stay on a reachable row and change nothing else. */
  lemma CursorMoves(l: ListState)
    requires ListInv(l)
    ensures ListInv(CursorUp(l)) && ListInv(CursorDown(l))
    ensures CursorUp(l).pos == (if l.pos == 0 then 0 else l.pos - 1)
    ensures CursorDown(l).pos == (if l.pos == Rows(l.count) - 1 then l.pos else l.pos + 1)
    ensures Files(CursorUp(l)) == Files(l) && Files(CursorDown(l)) == Files(l)
  {
  }

  /**
   * L exchanges the file under the cursor with the one above it and
   * leaves every other file, the count and the shape as they were; the
   * cursor stays on the moved file.
   */
  lemma MoveUpMeaning(l: ListState)
    requires ListInv(l) && 0 < l.pos < l.count
    ensures ListInv(MoveUp(l))
    ensures var f := Files(l); Files(MoveUp(l)) == f[l.pos - 1 := f[l.pos]][l.pos := f[l.pos - 1]]
    ensures Files(MoveUp(l))[MoveUp(l).pos] == Files(l)[l.pos]
    ensures multiset(Files(MoveUp(l))) == multiset(Files(l))
  {
    var f := Files(l);
    var g := Files(MoveUp(l));
    assert g == f[l.pos - 1 := f[l.pos]][l.pos := f[l.pos - 1]];
  }

  /** R exchanges the file under the cursor with the one below it; the cursor stays on the moved file. */
  lemma MoveDownMeaning(l: ListState)
    requires ListInv(l) && l.pos + 1 < l.count
    ensures ListInv(MoveDown(l))
    ensures var f := Files(l); Files(MoveDown(l)) == f[l.pos := f[l.pos + 1]][l.pos + 1 := f[l.pos]]
    ensures Files(MoveDown(l))[MoveDown(l).pos] == Files(l)[l.pos]
    ensures multiset(Files(MoveDown(l))) == multiset(Files(l))
  {
    var f := Files(l);
    var g := Files(MoveDown(l));
    assert g == f[l.pos := f[l.pos + 1]][l.pos + 1 := f[l.pos]];
  }

  /** L and R undo each other, and neither does anything where it does not apply. */
  lemma MoveRoundTrip(l: ListState)
    requires ListInv(l)
    ensures 0 < l.pos < l.count ==> MoveDown(MoveUp(l)) == l
    ensures l.pos + 1 < l.count ==> MoveUp(MoveDown(l)) == l
    ensures !(0 < l.pos < l.count) ==> MoveUp(l) == l
    ensures !(l.pos + 1 < l.count) ==> MoveDown(l) == l
  {
    if 0 < l.pos < l.count {
      assert Swap(Swap(l.slots, l.pos - 1, l.pos), l.pos - 1, l.pos) == l.slots;
    }
    if l.pos + 1 < l.count {
      assert Swap(Swap(l.slots, l.pos, l.pos + 1), l.pos, l.pos + 1) == l.slots;
    }
  }

  /**
   * Y on a file row drops exactly that file, keeping the others in order;
   * the cursor stays on the row, which now shows the next file or the
   * "(add new...)" row. Y on the "(add new...)" row changes nothing.
   */
  lemma RemoveMeaning(l: ListState)
    requires ListInv(l)
    ensures ListInv(Remove(l))
    ensures l.pos < l.count ==> Files(Remove(l)) == Files(l)[..l.pos] + Files(l)[l.pos + 1..]
    ensures l.pos < l.count ==> Remove(l).count == l.count - 1 && Remove(l).pos == l.pos
    ensures l.pos >= l.count ==> Remove(l) == l
  {
    if l.pos < l.count {
      var r := Remove(l);
      forall i | 0 <= i < MAX_PWADS
        ensures r.slots[i].Some? <==> i < r.count
      {
        if i < l.pos {
          assert r.slots[i] == l.slots[i];
        } else if i < MAX_PWADS - 1 {
          assert r.slots[i] == l.slots[i + 1];
        }
      }
      var f := Files(l);
      assert Files(r) == f[..l.pos] + f[l.pos + 1..];
    }
  }

  /**
   * Filling the row under the cursor appends a file on the "(add new...)"
   * row and replaces the file on any other row; either way the shape is
   * kept.
   */
  lemma SetFileMeaning(l: ListState, f: string)
    requires ListInv(l)
    ensures ListInv(SetFile(l, l.pos, f))
    ensures l.pos == l.count ==> Files(SetFile(l, l.pos, f)) == Files(l) + [f]
    ensures l.pos < l.count ==> Files(SetFile(l, l.pos, f)) == Files(l)[l.pos := f]
  {
    var r := SetFile(l, l.pos, f);
    if l.pos == l.count {
      assert Files(r) == Files(l) + [f];
    } else {
      assert Files(r) == Files(l)[l.pos := f];
    }
  }

  /** Every key keeps the list's shape. */
  lemma ListKeyKeepsInv(l: ListState, down: set<ListKeyName>, chosen: Option<string>)
    requires ListInv(l)
    ensures ListInv(ListKey(l, down, chosen).l)
  {
    CursorMoves(l);
    RemoveMeaning(l);
    if chosen.Some? {
      SetFileMeaning(l, chosen.value);
    }
    if 0 < l.pos < l.count {
      MoveUpMeaning(l);
    }
    if l.pos + 1 < l.count {
      MoveDownMeaning(l);
    }
  }

  /** An access the code makes outside `addfiles`. */
  datatype ListFault = AddfilesOutOfBounds(index: int)

  /**
   * The shift loop of Y as written (lines 355-356): `i` runs from the
   * cursor while it is below both the count and MAX_PWADS, and each pass
   * reads slot `i + 1`.
   */
  function ShiftAsWritten(slots: seq<Option<string>>, i: int, count: int): Result<seq<Option<string>>, ListFault>
    requires 0 <= i <= |slots|
    decreases |slots| - i
  {
    if i < count && i < MAX_PWADS then
      if i + 1 < |slots| then ShiftAsWritten(slots[i := slots[i + 1]], i + 1, count)
      else Failure(AddfilesOutOfBounds(i + 1))
    else
      Success(slots)
  }

  /** Y as written (lines 353-360): the shift, then `addfiles[addfilescount--] = 0` whenever the count is nonzero. */
  function RemoveAsWritten(l: ListState): Result<ListState, ListFault>
    requires ListInv(l)
  {
    match ShiftAsWritten(l.slots, l.pos, l.count)
    case Failure(e) => Failure(e)
    case Success(s) =>
      if l.count == 0 then Success(l.(slots := s))
      else if l.count < |s| then Success(ListState(s[l.count := None], l.count - 1, l.pos))
      else Failure(AddfilesOutOfBounds(l.count))
  }

  /**
   * What the shift loop computes from `i` on, when it stays inside the
   * array: every slot from `i` up to the count takes its successor's
   * value; the slots before `i` and from the count on are unchanged.
   */
  lemma {:induction false} ShiftMeaning(slots: seq<Option<string>>, i: int, count: int)
    requires 0 <= i <= count < |slots| && count <= MAX_PWADS
    ensures ShiftAsWritten(slots, i, count) == Success(slots[..i] + slots[i + 1..count + 1] + slots[count..])
    decreases count - i
  {
    if i < count {
      var s' := slots[i := slots[i + 1]];
      ShiftMeaning(s', i + 1, count);
      assert s'[..i + 1] + s'[i + 2..count + 1] + s'[count..] == slots[..i] + slots[i + 1..count + 1] + slots[count..];
    } else {
      assert slots[..i] + slots[i + 1..count + 1] + slots[count..] == slots;
    }
  }

  /** With a full list the shift reads one slot past the end of `addfiles`. */
  lemma {:induction false} ShiftFaultsOnFullList(slots: seq<Option<string>>, i: int)
    requires |slots| == MAX_PWADS && 0 <= i < MAX_PWADS
    ensures ShiftAsWritten(slots, i, MAX_PWADS) == Failure(AddfilesOutOfBounds(MAX_PWADS))
    decreases MAX_PWADS - i
  {
    if i + 1 < MAX_PWADS {
      ShiftFaultsOnFullList(slots[i := slots[i + 1]], i + 1);
    }
  }

  /** On a file row of a list that is not full, Y as written does what `Remove` intends. */
  lemma RemoveAsWrittenAgrees(l: ListState)
    requires ListInv(l) && l.pos < l.count < MAX_PWADS
    ensures RemoveAsWritten(l) == Success(Remove(l))
  {
    ShiftMeaning(l.slots, l.pos, l.count);
    var s := l.slots[..l.pos] + l.slots[l.pos + 1..l.count + 1] + l.slots[l.count..];
    assert s[l.count := None] == l.slots[..l.pos] + l.slots[l.pos + 1..] + [None];
  }

  /** Y as written on a full list reads and writes `addfiles[MAX_PWADS]`, one past the array, wherever the cursor is. */
  lemma RemoveAsWrittenFullList(l: ListState)
    requires ListInv(l) && l.count == MAX_PWADS
    ensures RemoveAsWritten(l) == Failure(AddfilesOutOfBounds(MAX_PWADS))
  {
    ShiftFaultsOnFullList(l.slots, l.pos);
  }

  /**
   * Y as written on the "(add new...)" row of a non-empty list shifts
   * nothing, clears the already NULL slot at the count and decrements the
   * count: the last file, which the cursor was not on, drops out of the
   * list while its slot still holds it, and the cursor is left below the
   * rows it can reach.
   */
  lemma RemoveAsWrittenOnNewRow(l: ListState)
    requires ListInv(l) && 0 < l.count == l.pos
    ensures RemoveAsWritten(l).Success?
    ensures var r := RemoveAsWritten(l).value;
            r.count == l.count - 1 && r.slots == l.slots && !ListInv(r)
  {
    var s := ShiftAsWritten(l.slots, l.pos, l.count);
    assert s == Success(l.slots);
  }

  /** The smallest case: one file, cursor on "(add new...)", and Y forgets the file. */
  lemma RemoveAsWrittenLosesFile()
    ensures var l := SetFile(EmptyList(), 0, "doom.wad").(pos := 1);
            && ListInv(l) && Files(l) == ["doom.wad"]
            && RemoveAsWritten(l).Success? && RemoveAsWritten(l).value.count == 0
  {
    var l := SetFile(EmptyList(), 0, "doom.wad").(pos := 1);
    SetFileMeaning(EmptyList(), "doom.wad");
    assert Files(l) == ["doom.wad"];
    RemoveAsWrittenOnNewRow(l);
  }
}

=== FILE: volume_table.dfy ===
/**
 * The gain lookup table built by I_SetChannels: for every gain level
 * 0..127 and every raw unsigned sample byte, the signed amount that byte
 * contributes to a mixed sample at that gain. Raw byte 128 is silence; the
 * divisor 191 (instead of 127) leaves headroom so that full-volume sounds
 * clip less.
 */
module VolumeTable {
  import opened CInt

  const GAIN_LEVELS: int := 128
  const ROW_SIZE: int := 256
  const TABLE_SIZE: int := 32768
  /** The raw byte that encodes zero amplitude. */
  const SILENCE: int := 128
  const HEADROOM_DIVISOR: int := 191

  /** The largest magnitude any entry reaches (gain 127, byte 0). */
  const MAX_NEGATIVE_ENTRY: int := -21788
  /** The largest positive entry (gain 127, byte 255). */
  const MAX_POSITIVE_ENTRY: int := 21617

  predicate IsGain(g: int) {
    0 <= g < GAIN_LEVELS
  }

  /** The entry for gain `g` and raw byte `b`, computed with C's truncating division. */
  function VolEntry(g: int, b: byte): int
    requires IsGain(g)
  {
    TruncDiv(g * (b - SILENCE) * 256, HEADROOM_DIVISOR)
  }

  /** A flat table laid out as 128 rows of 256 entries, row `g` holding gain `g`. */
  ghost predicate IsVolumeTable(t: seq<int>) {
    && |t| == TABLE_SIZE
    && forall k :: 0 <= k < TABLE_SIZE ==> t[k] == VolEntry(k / ROW_SIZE, k % ROW_SIZE)
  }

  lemma RowIndex(g: int, b: byte)
    requires IsGain(g)
    ensures 0 <= g * ROW_SIZE + b < TABLE_SIZE
    ensures (g * ROW_SIZE + b) / ROW_SIZE == g
    ensures (g * ROW_SIZE + b) % ROW_SIZE == b
  {
  }

  /**
   * Reading byte `b` through the row pointer `&vol_lookup[g*256]` that a
   * channel keeps for gain `g`: the result is that gain's entry for `b`.
   */
  function Lookup(t: seq<int>, g: int, b: byte): int
    requires |t| == TABLE_SIZE
    requires IsGain(g)
  {
    RowIndex(g, b);
    t[g * ROW_SIZE + b]
  }

  /** Read through a correctly built table, a lookup gives the gain's entry for the byte. */
  lemma LookupEntry(t: seq<int>, g: int, b: byte)
    requires IsVolumeTable(t)
    requires IsGain(g)
    ensures Lookup(t, g, b) == VolEntry(g, b)
  {
    RowIndex(g, b);
  }

  /** Builds the table row by row, as the nested loops of I_SetChannels do. */
  method BuildVolumeTable() returns (t: seq<int>)
    ensures IsVolumeTable(t)
  {
    t := [];
    var i := 0;
    while i < GAIN_LEVELS
      invariant 0 <= i <= GAIN_LEVELS
      invariant |t| == i * ROW_SIZE
      invariant forall k :: 0 <= k < |t| ==> t[k] == VolEntry(k / ROW_SIZE, k % ROW_SIZE)
    {
      var j := 0;
      while j < ROW_SIZE
        invariant 0 <= j <= ROW_SIZE
        invariant |t| == i * ROW_SIZE + j
        invariant forall k :: 0 <= k < |t| ==> t[k] == VolEntry(k / ROW_SIZE, k % ROW_SIZE)
      {
        RowIndex(i, j);
        t := t + [TruncDiv(i * (j - SILENCE) * 256, HEADROOM_DIVISOR)];
        j := j + 1;
      }
      i := i + 1;
    }
  }

  lemma MulSign(a: int, d: int)
    requires a > 0
    ensures d > 0 ==> a * d > 0
    ensures d < 0 ==> a * d < 0
  {
  }

  /**
   * The sign of an entry follows the sign of the biased sample: positive
   * exactly above 128, negative exactly below, zero at 128 or at gain 0.
   */
  lemma VolSign(g: int, b: byte)
    requires IsGain(g)
    ensures VolEntry(g, b) > 0 <==> g > 0 && b > SILENCE
    ensures VolEntry(g, b) < 0 <==> g > 0 && b < SILENCE
    ensures VolEntry(g, b) == 0 <==> g == 0 || b == SILENCE
  {
    var x := g * (b - SILENCE) * 256;
    if g > 0 {
      MulSign(g, b - SILENCE);
      MulSign(256, g * (b - SILENCE));
      if b != SILENCE {
        assert Abs(x) >= 256;
      }
    }
  }

  lemma MulBounds(g: int, d: int)
    requires 0 <= g <= 127 && -128 <= d <= 127
    ensures -16256 <= g * d <= 16129
  {
    if d >= 0 {
      assert g * d <= 127 * d;
    } else {
      assert g * d >= 127 * d;
    }
  }

  /** Every entry lies between the two extremes, which are reached at gain 127. */
  lemma VolBounds(g: int, b: byte)
    requires IsGain(g)
    ensures MAX_NEGATIVE_ENTRY <= VolEntry(g, b) <= MAX_POSITIVE_ENTRY
    ensures VolEntry(127, 0) == MAX_NEGATIVE_ENTRY
    ensures VolEntry(127, 255) == MAX_POSITIVE_ENTRY
  {
    MulBounds(g, b - SILENCE);
    var x := g * (b - SILENCE) * 256;
    assert -4161536 <= x <= 4129024;
  }

  /**
   * Truncating division makes each row odd-symmetric about the silence byte:
   * a byte d above 128 contributes exactly the negation of the byte d below.
   */
  lemma VolOddSymmetric(g: int, d: int)
    requires IsGain(g)
    requires 0 <= d <= 127
    ensures VolEntry(g, SILENCE + d) == -VolEntry(g, SILENCE - d)
  {
    assert g * (SILENCE - d - SILENCE) * 256 == -(g * (SILENCE + d - SILENCE) * 256);
  }

  lemma TruncDivMonotone(a: int, a': int)
    requires a <= a'
    ensures TruncDiv(a, HEADROOM_DIVISOR) <= TruncDiv(a', HEADROOM_DIVISOR)
  {
    if a < 0 && a' < 0 {
      assert (-a') / 191 <= (-a) / 191;
    } else if a >= 0 {
      assert a / 191 <= a' / 191;
    }
  }

  /** Each row is non-decreasing: a larger raw byte never contributes less. */
  lemma VolMonotone(g: int, b: byte, b': byte)
    requires IsGain(g)
    requires b <= b'
    ensures VolEntry(g, b) <= VolEntry(g, b')
  {
    assert g * (b - SILENCE) <= g * (b' - SILENCE);
    TruncDivMonotone(g * (b - SILENCE) * 256, g * (b' - SILENCE) * 256);
  }
}

=== FILE: wrappers.dfy ===
/** Failure-carrying result types shared by the model. */
module Wrappers {

  /** A value that may be absent; stands for a possibly-NULL C pointer. */
  datatype Option<+T> = None | Some(value: T)

  /** The outcome of an operation that can fail. */
  datatype Result<+T, +E> = Success(value: T) | Failure(error: E)
}
